=== FILE: README.md ===
# A Dafny model of the edge-service credential operations

This project models the REST operation layer of the edge service
(`pkg/restapi/vc/operation/operations.go`): the service that issues, stores,
retrieves and verifies W3C verifiable credentials on behalf of named issuer
profiles. The model covers:

- **mode routing**: the issuer and verifier modes and the endpoint table each one exposes;
- **request validation**: profile requests and the store/retrieve requests;
- **signing-key selection**: the key picked from a DID document, and the DID-prefix test;
- **compose-and-issue**: proof format, signer DID (`kid` option), building the credential
  from claims, terms of use and evidence, and signing it;
- **stored-profile issuance**: the credential of a profile, its id, issuer and status reference;
- **verification**: the named-check API with the proof check, the revocation-status lookup
  behind credential verification, and presentation verification;
- **confidential storage**: the structured document, its encryption, the vault write, the
  credential-id to document-id mapping, and retrieval;
- **profiles**: creation (new or resolved DID, key selection, save, vault provisioning) and lookup.

Every operation is a pure function over immutable data, except the named-check
and presentation handlers, which are methods because their source walks a list in a
loop. Everything the handlers call outside this file is a parameter of the operation
it is used in:
- the credential library's parse-and-verify (`Verification.Parser`, `Verification.PresentationParser`);
- DID creation and resolution (`Profiles.DidService`, `Issuance.Resolver`);
- the signature suite (`Issuance.Signer`);
- the status manager (a status id `Result`, `Issuance.StatusUpdater`);
- the HTTP fetch and decoding of a status list (`Verification.StatusListFetcher`);
- the credential library's validation of a newly assembled credential (`Issuance.Validator`);
- the clock and the identifier generators (`now`, `freshId`);
- `url.Parse` (`parsesAsUri`);
- the JSON encoder's re-encoding of a stored credential (`reencode`);
- the faults of the profile store, the vault service and the ID-mapping store
  (`Profiles.ProfilePorts`, `Storage.StorePorts`).

Encryption is an abstract envelope (`Storage.Pack`/`Storage.Unpack`): it opens with
the service's own key, which is both sender and only recipient, and gives back exactly
the sealed document.

Modules, one per file: `Wrappers`, `Json`, `Errors`, `Credentials` (the data model),
`Routes`, `Validation`, `Keys`, `Compose`, `Issuance`, `Verification`, `Storage`,
`Profiles`.

Behaviour of the code worth noting:
- `/verifications` (the older path of `/verifier/credentials`) is registered in
  verifier mode only (operations.go:220-228).
- `storeVC` writes the vault document before the ID mapping (operations.go:538-550).
  A failed mapping write therefore leaves an unmapped document in the vault
  (`Storage.MappingWriteFailureOrphansDocument`).
- `getPublicKeyID` does not fall back to the authentication methods when the DID
  document has public keys of which none is Ed25519. It answers the document id with
  an empty key id appended, which is just the document id (operations.go:1182-1198,
  `Keys.AuthenticationIgnoredWithPublicKeys`).
- Retrieval answers the stored `message` value as the JSON encoder writes it again,
  not the stored bytes verbatim (operations.go:636-652).
- `getProfileHandler` answers 404 only when the store's error is the package's own
  `errProfileNotFound` (operations.go:87, 468), which the profile store never returns;
  a missing profile is therefore a 400 (`Profiles.ServeProfileNeverAnswersNotFound`).
- The compose-and-issue pipeline here builds the subject with the corrected
  `Compose.CredentialSubject`, so a request with `"claims": null` is issued where the
  code panics (see Findings).

## Model

| member | source | states |
|---|---|---|
| Routes.RestHandlers | pkg/restapi/vc/operation/operations.go:218-252 | an unknown mode fails with an invalid-mode error naming it, and only then; verifier mode exposes exactly the four verification paths; issuer mode exposes exactly the eleven issuer paths |
| Routes.ModeIsolation | pkg/restapi/vc/operation/operations.go:218-252 | both modes serve credential verification; the issuer table serves neither presentation verification nor the named-check paths, and the verifier table serves none of the profile, issuance, storage, status or key paths |
| Routes.IssuerTableIsUnambiguous | pkg/restapi/vc/operation/operations.go:229-248 | the issuer table has eleven routes with pairwise distinct paths |
| Routes.VerifierTableIsUnambiguous | pkg/restapi/vc/operation/operations.go:220-228 | the verifier table has four routes with distinct paths, and the old and the new named-check paths reach the same handler |
| Validation.ValidateProfileRequest | pkg/restapi/vc/operation/operations.go:773-792 | a profile request is accepted exactly when name, URI and signature type are all present and the URI parses; the error is the first of those failing, in that order, an unparsable URI being reported with the URI |
| Validation.ProfileValidationStopsAtFirstMissing | pkg/restapi/vc/operation/operations.go:773-792 | two requests that agree up to their first missing field are refused with the same error, whatever their later fields hold |
| Validation.ValidateRequest | pkg/restapi/vc/operation/operations.go:794-804 | a store or retrieve request is accepted exactly when both profile name and credential id are non-empty; the profile name is reported first |
| Keys.IsDID | pkg/restapi/vc/operation/operations.go:1206-1208 | an identifier is in DID form when it starts with `did:` (its use is stated by Keys.PublicKeyId and Keys.SelectedKeyIsDid) |
| Keys.FirstEd25519 | pkg/restapi/vc/operation/operations.go:1185-1190 | finds the index of the first key whose type starts with the Ed25519 verification key type, or reports that there is none |
| Keys.PublicKeyId | pkg/restapi/vc/operation/operations.go:1180-1208 | fails exactly when the document has neither public keys nor authentication methods; with public keys, the first Ed25519 key's id, prefixed with the document id unless it is a DID, and the bare document id when none matches; otherwise the first authentication key |
| Keys.AuthenticationIgnoredWithPublicKeys | pkg/restapi/vc/operation/operations.go:1181-1200 | once a document has public keys, its authentication methods never influence the selected key |
| Keys.SelectedKeyIsDid | pkg/restapi/vc/operation/operations.go:1192-1198 | when the document id is a DID, the selected public key id is a DID too |
| Compose.RepresentationFor | pkg/restapi/vc/operation/operations.go:874-888 | an empty or `jws` proof format selects JWS, `proofValue` selects proof value, any other format is refused naming it |
| Compose.FormatName | pkg/restapi/vc/operation/operations.go:874-888 | each representation has a format name that maps back to it |
| Compose.SignerDid | pkg/restapi/vc/operation/operations.go:1021-1043 | without options the issuer signs; options that do not decode to an object are refused; a non-empty `kid` string replaces the issuer and an empty one keeps it; a missing or non-string `kid` is refused |
| Compose.SignerDidOnlyReadsKid | pkg/restapi/vc/operation/operations.go:1024-1040 | option objects that agree on `kid` select the same signer, whatever other options they carry |
| Compose.TypedIDsOf | pkg/restapi/vc/operation/operations.go:1011-1016 | a list decodes exactly when every element does, element by element and in order |
| Compose.DecodeTypedIDs | pkg/restapi/vc/operation/operations.go:999-1019 | absent terms give none; a single object gives a one-element list; an array gives its decoded elements; anything that does not decode is refused |
| Compose.TypedIDRoundTrip | pkg/restapi/vc/operation/operations.go:1004-1009 | a well-formed typed id written as a JSON object decodes back to itself |
| Compose.TypedIDsRoundTrip | pkg/restapi/vc/operation/operations.go:1011-1016 | a list of well-formed typed ids written as a JSON array decodes back to the same list |
| Compose.TermsOfUseRoundTrip | pkg/restapi/vc/operation/operations.go:999-1019 | terms of use given as one object or as an array come back as the same typed ids |
| Compose.SubjectAsWritten | pkg/restapi/vc/operation/operations.go:958-969 | as written, the subject build crashes exactly when the claims are the JSON `null` literal; a built subject carries the subject id |
| Compose.NullClaimsCrash | pkg/restapi/vc/operation/operations.go:961-968 | `"claims": null` crashes the subject build as written |
| Compose.CredentialSubject | pkg/restapi/vc/operation/operations.go:958-969 | claims that are absent or null give just the subject id; an object gives its fields with `id` set to the subject; any other value is refused |
| Compose.SubjectCorrectionOnlyRemovesCrash | pkg/restapi/vc/operation/operations.go:958-969 | the corrected subject build agrees with the code on every input except `null` claims, where it builds instead of crashing |
| Compose.EvidenceOf | pkg/restapi/vc/operation/operations.go:984-994 | absent evidence gives none; an object is kept; anything else is refused |
| Compose.BuildCredential | pkg/restapi/vc/operation/operations.go:943-997 | the composed credential has the W3C context, the request types or the default type, the subject with its id, the issuer, the dates, the decoded terms of use and evidence, no id, no status and no proof; failures come from claims, terms or evidence only; the subject is the corrected one, so `null` claims build |
| Compose.BuildCredentialKeepsTermsOfUse | pkg/restapi/vc/operation/operations.go:976-982 | terms of use sent as one typed id or as a list come out on the composed credential as exactly that list |
| Issuance.CreateCredential | pkg/restapi/vc/operation/operations.go:685-719 | a status failure is reported as such; with a status reference, the credential is created exactly when the library accepts the assembled credential, which has an id under the profile URI, the profile as issuer, now as issuance date, that status reference, the request's context, types and subject, and no expiry, terms, evidence or proof; a refusal carries the library's reason |
| Issuance.CredentialIdsAreScopedAndDistinct | pkg/restapi/vc/operation/operations.go:695-699 | credential ids start with the profile URI and a slash, and distinct fresh ids give distinct credential ids |
| Issuance.SigningProfile | pkg/restapi/vc/operation/operations.go:926-933 | the suite is configured with the selected key as creator, Ed25519Signature2018 and the requested representation |
| Issuance.SignCredential | pkg/restapi/vc/operation/operations.go:912-941 | resolution and key-selection failures are reported; once both succeed, the answer is the suite's for the selected key: its signed credential, or its error as a signing failure |
| Issuance.ComposeAndIssue | pkg/restapi/vc/operation/operations.go:854-910 | a client error (400) exactly when building, the proof format or the signer DID fails, carrying the first of those errors; otherwise the signing outcome decides: the signed credential, or a server error (500) carrying the signing error |
| Issuance.KidSelectsSigningDid | pkg/restapi/vc/operation/operations.go:1030-1040 | with a non-empty `kid` option, only the `kid` DID's resolution matters to the outcome |
| Issuance.IssueForProfile | pkg/restapi/vc/operation/operations.go:267-300 | an unknown profile is a client error; a credential that cannot be created is a client error carrying the cause; then the suite decides: its signed credential, or a server error for its failure |
| Issuance.IssueCredential | pkg/restapi/vc/operation/operations.go:822-852 | an invalid credential is a client error naming the cause; a valid one is signed as the assertion method in JWS form, and a signing failure is a server error |
| Issuance.UpdateCredentialStatus | pkg/restapi/vc/operation/operations.go:408-440 | the update succeeds exactly when the credential verifies, its issuer name is a known profile and the status manager accepts; every failure is a client error |
| Issuance.ComposeAndIssueExample | pkg/restapi/vc/operation/operations.go:854-941 | a request naming a resolvable issuer with one Ed25519 key is issued with the default type, the issuer, and one Ed25519Signature2018 proof made with that key |
| Issuance.ComposeIsBuildThenIssue | pkg/restapi/vc/operation/operations.go:822-910 | in JWS form without `kid`, compose-and-issue answers exactly what issuing the built credential as the issuer answers, errors included |
| Issuance.IssuedCredentialStatusIsUpdatable | pkg/restapi/vc/operation/operations.go:267-300 | a credential issued for a stored profile reaches that profile when its status is updated, if the suite only adds proofs and profiles are stored under their names |
| Verification.CheckProof | pkg/restapi/vc/operation/operations.go:1111-1130 | the proof check passes exactly when the credential verifies and carries a proof; the two failures carry their distinct messages |
| Verification.RequestedChecks | pkg/restapi/vc/operation/operations.go:1071-1076 | the requested checks, or just the proof check when the request names none |
| Verification.UnsupportedEmptyIff | pkg/restapi/vc/operation/operations.go:1090-1098 | no unsupported check is reported exactly when every requested name is the proof check |
| Verification.UnsupportedMultiplicity | pkg/restapi/vc/operation/operations.go:1090-1095 | every unsupported check name is reported as many times as it was requested |
| Verification.RunChecks | pkg/restapi/vc/operation/operations.go:1078-1098 | the results name, in request order, every requested check that failed: the proof check with its error, every other name as not supported |
| Verification.VerifyChecks | pkg/restapi/vc/operation/operations.go:1060-1109 | the checks pass exactly when every requested check is the proof check and the proof check passes (so, with no options, exactly when the proof check passes); then the checks are echoed, otherwise every failure is listed |
| Verification.RevocationVerdict | pkg/restapi/vc/operation/operations.go:362-374 | a matching status entry that verifies means not verified with its subject as the message; one that does not verify is a fault carrying the library's reason |
| Verification.ScanStatusList | pkg/restapi/vc/operation/operations.go:357-380 | no entry mentioning the credential id means verified with the success message; the first entry that mentions it decides: its subject is the reason when it verifies, a fault when it does not |
| Verification.CheckVCStatus | pkg/restapi/vc/operation/operations.go:338-381 | a status list that cannot be fetched or decoded is a fault, never a verdict; otherwise the scan decides |
| Verification.VerifyCredentialAsWritten | pkg/restapi/vc/operation/operations.go:302-336 | as written, the verification handler crashes exactly when the credential verifies but has no status reference |
| Verification.StatuslessCredentialCrashes | pkg/restapi/vc/operation/operations.go:324-326 | a correctly signed credential without a status reference crashes the handler as written |
| Verification.VerifyCredential | pkg/restapi/vc/operation/operations.go:302-336 | a credential that fails to verify is reported not verified with the library's reason; one without a status reference is an error; otherwise its status list decides |
| Verification.VerifyCorrectionOnlyRemovesCrash | pkg/restapi/vc/operation/operations.go:302-336 | the corrected handler agrees with the code wherever the code does not crash |
| Verification.RevokedCredentialIsNotVerified | pkg/restapi/vc/operation/operations.go:324-335 | a credential whose status list has a verifying entry mentioning it is not verified, with that entry's subject as the message |
| Verification.ProoflessCredentialPassesOnlyVerification | pkg/restapi/vc/operation/operations.go:302-336 | a credential without proofs and with an empty status list is verified by the credential endpoint while the named proof check refuses it |
| Verification.StatusMatchIsBySubstring | pkg/restapi/vc/operation/operations.go:357-360 | when the first status entry revokes one credential, every credential whose id is a prefix of that credential's id is answered not verified with that entry's subject |
| Verification.MentionedIdIsNeverVerified | pkg/restapi/vc/operation/operations.go:357-380 | a status list with any entry mentioning the credential id never answers that credential verified |
| Verification.PrefixOfRevokedIdIsNeverVerified | pkg/restapi/vc/operation/operations.go:357-380 | an entry anywhere in the status list that revokes one credential keeps every credential whose id is a prefix of its id from being answered verified |
| Json.ContainsExtension | pkg/restapi/vc/operation/operations.go:358 | text containing an identifier contains each of its prefixes |
| Verification.ParseAndVerifyPresentation | pkg/restapi/vc/operation/operations.go:1149-1178 | a presentation is accepted exactly when it parses and every embedded credential verifies; otherwise the error of the first credential that fails |
| Verification.VerifyPresentation | pkg/restapi/vc/operation/operations.go:655-683 | a presentation is verified exactly when it and all its credentials verify, with the success message; otherwise the first failure's reason |
| Storage.Unpack | pkg/restapi/vc/operation/operations.go:620-626 | an envelope opens, to its sealed document, exactly with its recipient's key; otherwise the unpack failure |
| Storage.Pack | pkg/restapi/vc/operation/operations.go:523-530 | a document sealed with the service key opens with that key to the same document and with no other key |
| Storage.BuildStructuredDoc | pkg/restapi/vc/operation/operations.go:553-581 | an already-mapped credential keeps its document id, a new one gets the fresh id; the content is the raw credential under `message`; lookup and generator faults abort |
| Storage.StoreVC | pkg/restapi/vc/operation/operations.go:508-551 | the store succeeds exactly when the document builds and encodes, every port works and the vault accepts the create; a stored credential is mapped to a document in the profile's vault that opens to its raw bytes; only the built document's slot of the vaults can change and existing mappings never change; any failure leaves the mapping unchanged, and every failure before the mapping write leaves both stores unchanged |
| Storage.MappingWriteFailureOrphansDocument | pkg/restapi/vc/operation/operations.go:538-550 | when only the mapping write fails, a new credential's document is in the vault while no mapping points to it |
| Storage.Retrieve | pkg/restapi/vc/operation/operations.go:596-653 | an invalid request, an unmapped credential or a missing document is a client error, only an undecryptable document is a server error; a valid request for a mapped, present document succeeds exactly when the document opens with the service key, answering its re-encoded `message` |
| Storage.StoreThenRetrieve | pkg/restapi/vc/operation/operations.go:508-653 | after a successful store, retrieval gives back the stored credential as the JSON encoder writes it |
| Storage.RepeatedStoreKeepsDocumentId | pkg/restapi/vc/operation/operations.go:553-568 | with every store port working, storing a new credential id twice succeeds both times when the vault replaces on create, the second store reuses the first one's document id, and retrieval gives the latest payload |
| Storage.RepeatedStoreRefusedByCreateOnlyVault | pkg/restapi/vc/operation/operations.go:538-543 | when the vault refuses a create under an id it holds, the second store of a credential id fails with nothing changed and the first payload stays retrievable |
| Storage.StoreCredential | pkg/restapi/vc/operation/operations.go:482-506 | a credential that does not verify, or an empty profile or credential id, is refused and nothing changes; otherwise the credential is stored under its own id |
| Storage.StoreCredentialThenRetrieve | pkg/restapi/vc/operation/operations.go:482-653 | a credential the store handler accepts is retrieved under its own id and profile as the JSON encoder writes it |
| Storage.StoreAndRetrieveShareValidation | pkg/restapi/vc/operation/operations.go:494-605 | an empty profile name or credential id is refused by both store and retrieve with the same error, and the refused store changes nothing |
| Profiles.CreateProfile | pkg/restapi/vc/operation/operations.go:721-771 | validation, DID, key-selection and save failures are reported and change nothing; when all of them and the vault succeed a profile is created, taking the DID document's id and selected key, saved and given its vault; a vault failure reports an error while exactly the built profile stays saved and every other profile is unchanged |
| Profiles.GetProfile | pkg/restapi/vc/operation/operations.go:466 | a profile is found exactly when one of that name was saved |
| Profiles.ServeProfile | pkg/restapi/vc/operation/operations.go:463-480 | a stored profile is answered exactly when the store reads; a profile that is not stored is a 400 carrying the store's not-found error, as is every other store failure |
| Profiles.ServeProfileNeverAnswersNotFound | pkg/restapi/vc/operation/operations.go:466-476 | the 404 branch is never taken: the sentinel it compares against is never returned by the profile store |
| Profiles.CreatedProfileIsServed | pkg/restapi/vc/operation/operations.go:463-480 | a profile created successfully is answered by the get-profile handler under its name |
| Profiles.CreateProfileKeepsProfilesUnderName | pkg/restapi/vc/operation/operations.go:748-762 | profile creation keeps every profile stored under its own name, whatever the outcome |
| Profiles.CreatedProfileIsRetrievable | pkg/restapi/vc/operation/operations.go:721-771 | a profile created successfully can be looked up by name and its vault exists |

## Left out

- HTTP transport, request decoding and response writing (`writeResponse`, `writeErrorResponse`, reading bodies): the model starts from decoded requests and ends at the response value or error with its status code.
- `New` (service construction, packer and key setup): configuration only.
- `generateKeypairHandler`: it calls the key management service and encodes the public key; it has no logic of its own.
- `vcStatus`: it forwards the request URL to the status manager and writes the list back; no logic of its own.
- `sendHTTPRequest` and the decoding of the fetched status list are the `StatusListFetcher` oracle.
- `generateEDVCompatibleID` (random bytes, base58) is the `freshId` parameter of `Storage.StorePorts`.
- Storage.StoreVC: whether `json.Marshal` accepts the structured document depends only on whether the raw credential text is a JSON value; the model does not decide that, it is the `marshalFault` port answer (a 400 that changes nothing).
- JSON marshalling failures of a credential subject and of an embedded credential of a presentation are not modelled: those values are decoded JSON and always encode.
- Storage.StoreVC: whether the profile's vault has been provisioned is part of the `writeFault` port answer; the vault names of `Profiles.ProfileState` and the documents of `Storage.StoreState` are separate states, so a store to a profile that was never created succeeds when the ports say so.
- Storage.Retrieve: mapping-store faults other than "not found" and vault read faults other than a missing document are not modelled; both are client errors like the ones that are.
- Storage.Retrieve: a decrypted document that is not valid JSON is not modelled; `Storage.Pack` only ever seals structured documents.
- Compose.DecodeTypedIDs: a typed id is decoded as a plain object with string `id` and `type` and every other field kept. The credential library's own typed-id decoder is not part of this model.
- Validation.ValidateProfileRequest: `url.Parse` is the `parsesAsUri` oracle, not a model of URL syntax.
- Verification.RunChecks: the proof check is evaluated once and its outcome reused for every occurrence of `proof` in the request; the check is deterministic, so the results are the same.
- Storage.StoreVC: whether the vault service accepts a create under a document id it already holds is not in this file; it is the `replacesExisting` port answer, and the latest-payload conclusion of Storage.RepeatedStoreKeepsDocumentId holds only when it is true.
- Issuance.CreateCredential: the credential library is taken to return the assembled credential unchanged when it accepts it; its own normalisation of the credential is not part of this model.
- Issuance.IssueForProfile: read faults of the profile store are modelled only for the get-profile handler (`Profiles.ServeProfile`); `IssueForProfile` and `Issuance.UpdateCredentialStatus` read the store as a map, where in the code a read fault is a 400 carrying the store's error.
- Concurrency: requests are modelled one at a time; races between concurrent stores of the same credential id are not.
- Numbers in JSON are integers; no modelled logic inspects a number.

## Findings

| source | as written | input that shows it | evidently intended | confidence | as-written member | corrected member |
|---|---|---|---|---|---|---|
| pkg/restapi/vc/operation/operations.go:961-968 | claims that are present are unmarshalled into the subject map, then the subject id is written into that map | a compose request with `"claims": null`: the raw claims are the text `null`, unmarshalling it sets the map to nil, and the write into the nil map panics | null claims treated like absent claims, giving a subject with just its id | not executed; high (Go's documented decoding of `null` into a map) | Compose.SubjectAsWritten | Compose.CredentialSubject |
| pkg/restapi/vc/operation/operations.go:324-326 | after a credential verifies, its status reference's id is read without a nil test | a correctly signed credential with no `credentialStatus` posted to `/verify`: the status pointer is nil and the read panics | a credential without a status reference answered with an error, since its revocation status cannot be determined | not executed; high (nil pointer dereference) | Verification.VerifyCredentialAsWritten | Verification.VerifyCredential |

=== FILE: compose.dfy ===
/**
 * Shaping a compose-and-issue request into an unsigned credential: the proof
 * format, the signer DID (with its `kid` override), the credential subject,
 * terms of use and evidence.
 */
module Compose {
  import opened Wrappers
  import opened Errors
  import opened Credentials
  import opened Json

  const W3CCredentialsContext := "https://www.w3.org/2018/credentials/v1"
  const DefaultCredentialType := "VerifiableCredential"
  const JwsFormat := "jws"
  const ProofValueFormat := "proofValue"
  const KeyIdOption := "kid"

  /**
   * A compose-and-issue request. The JSON-valued fields are absent (`None`) when the
   * request leaves them out and otherwise hold the decoded JSON value.
   */
  datatype ComposeRequest = ComposeRequest(
    issuer: string,
    subject: string,
    types: seq<string>,
    issuanceDate: Option<Time>,
    expirationDate: Option<Time>,
    claims: Option<Value>,
    evidence: Option<Value>,
    termsOfUse: Option<Value>,
    proofFormat: string,
    proofFormatOptions: Option<Value>)

  // ---------------------------------------------------------------------------
  // proof format

  /** The signature representation a request asks for; an absent format means JWS. */
  function RepresentationFor(format: string): (r: Result<SignatureRepresentation, Error>)
    ensures r.Success? <==> format == "" || format == JwsFormat || format == ProofValueFormat
    ensures r == Success(SignatureProofValue) <==> format == ProofValueFormat
    ensures r.Failure? ==> r.error == InvalidProofFormat(format)
  {
    if format == "" then Success(SignatureJWS)
    else if format == JwsFormat then Success(SignatureJWS)
    else if format == ProofValueFormat then Success(SignatureProofValue)
    else Failure(InvalidProofFormat(format))
  }

  /** The name a client writes for a representation; reading it back gives the representation. */
  function FormatName(rep: SignatureRepresentation): (name: string)
    ensures name != "" && RepresentationFor(name) == Success(rep)
  {
    match rep
    case SignatureJWS => JwsFormat
    case SignatureProofValue => ProofValueFormat
  }

  // ---------------------------------------------------------------------------
  // signer

  /** Decoding a JSON value into a Go map: an object gives its fields, `null` gives the nil map. */
  function AsObject(v: Value): Option<map<string, Value>> {
    match v
    case Obj(fields) => Some(fields)
    case Null => Some(map[])
    case _ => None
  }

  /**
   * The DID a compose-and-issue request is signed with: the issuer, unless the proof
   * format options carry a non-empty string `kid`. Once options are present, a `kid`
   * that is missing or not a string is an error; a `kid` equal to "" keeps the issuer.
   */
  function SignerDid(issuer: string, options: Option<Value>): (r: Result<string, Error>)
    ensures options.None? ==> r == Success(issuer)
    ensures options.Some? && AsObject(options.value).None? ==> r == Failure(OptionsNotObject)
    ensures options.Some? && AsObject(options.value).Some? ==>
      var opts := AsObject(options.value).value;
      && (KeyIdOption in opts && opts[KeyIdOption] == Str("") ==> r == Success(issuer))
      && (KeyIdOption in opts && opts[KeyIdOption].Str? && opts[KeyIdOption].s != "" ==>
            r == Success(opts[KeyIdOption].s))
      && (KeyIdOption !in opts || !opts[KeyIdOption].Str? ==> r == Failure(InvalidKidType))
    ensures r.Success? && r.value != issuer ==>
      options.Some? && options.value.Obj? && KeyIdOption in options.value.fields &&
      options.value.fields[KeyIdOption] == Str(r.value)
  {
    match options
    case None => Success(issuer)
    case Some(v) =>
      match AsObject(v)
      case None => Failure(OptionsNotObject)
      case Some(opts) =>
        // an absent `kid` reads as a nil interface, which differs from "" and is not a string
        if KeyIdOption in opts && opts[KeyIdOption] == Str("") then Success(issuer)
        else if KeyIdOption in opts && opts[KeyIdOption].Str? then Success(opts[KeyIdOption].s)
        else Failure(InvalidKidType)
  }

  /**
   * Only `kid` is read from the proof format options: two option objects that agree on
   * `kid` select the same signer, whatever else they hold.
   */
  lemma SignerDidOnlyReadsKid(issuer: string, fields: map<string, Value>, other: map<string, Value>)
    requires KeyIdOption in fields <==> KeyIdOption in other
    requires KeyIdOption in fields ==> fields[KeyIdOption] == other[KeyIdOption]
    ensures SignerDid(issuer, Some(Obj(fields))) == SignerDid(issuer, Some(Obj(other)))
  {
  }

  // ---------------------------------------------------------------------------
  // typed ids (terms of use)

  /** A string field of a decoded object: absent or `null` leave it empty, any other non-string fails. */
  function StringField(fields: map<string, Value>, key: string): Option<string> {
    if key !in fields then Some("")
    else match fields[key] {
      case Str(s) => Some(s)
      case Null => Some("")
      case _ => None
    }
  }

  /** Decoding one JSON value as a typed id; `null` leaves every field empty. */
  function TypedIDOf(v: Value): Option<TypedID> {
    match v
    case Null => Some(TypedID("", "", map[]))
    case Obj(fields) =>
      (match (StringField(fields, "id"), StringField(fields, "type")) {
        case (Some(id), Some(typ)) => Some(TypedID(id, typ, fields - {"id", "type"}))
        case _ => None
      })
    case _ => None
  }

  /** Decoding the elements of a JSON array as typed ids, all or nothing. */
  function TypedIDsOf(items: seq<Value>): (r: Option<seq<TypedID>>)
    ensures r.Some? <==> forall i :: 0 <= i < |items| ==> TypedIDOf(items[i]).Some?
    ensures r.Some? ==> (|r.value| == |items| &&
      forall i :: 0 <= i < |items| ==> r.value[i] == TypedIDOf(items[i]).value)
  {
    if |items| == 0 then Some([])
    else match (TypedIDOf(items[0]), TypedIDsOf(items[1..])) {
      case (Some(t), Some(ts)) => Some([t] + ts)
      case _ => None
    }
  }

  /** Decoding a JSON value as a list of typed ids: an array, or `null` for the nil slice. */
  function TypedIDListOf(v: Value): Option<seq<TypedID>> {
    match v
    case Arr(items) => TypedIDsOf(items)
    case Null => Some([])
    case _ => None
  }

  /**
   * A field that may hold one typed id or a list of them: an absent field gives none,
   * a value that decodes as a single typed id gives a one-element list, otherwise it is
   * decoded as a list, and a value that is neither is an error.
   */
  function DecodeTypedIDs(raw: Option<Value>): (r: Result<seq<TypedID>, Error>)
    ensures raw.None? ==> r == Success([])
    ensures raw.Some? && TypedIDOf(raw.value).Some? ==> r == Success([TypedIDOf(raw.value).value])
    ensures raw.Some? && TypedIDOf(raw.value).None? && TypedIDListOf(raw.value).Some? ==>
      r == Success(TypedIDListOf(raw.value).value)
    ensures r.Failure? <==> raw.Some? && TypedIDOf(raw.value).None? && TypedIDListOf(raw.value).None?
    ensures r.Failure? ==> r.error == MalformedTypedId
  {
    match raw
    case None => Success([])
    case Some(v) =>
      match TypedIDOf(v)
      case Some(t) => Success([t])
      case None =>
        match TypedIDListOf(v)
        case Some(ts) => Success(ts)
        case None => Failure(MalformedTypedId)
  }

  /** A typed id whose extra fields do not shadow `id` or `type`. */
  predicate WellFormedTypedID(t: TypedID) {
    "id" !in t.custom && "type" !in t.custom
  }

  /** The JSON object of a typed id; empty `id` and `type` are omitted. */
  function TypedIDValue(t: TypedID): Value {
    var withId := if t.id == "" then t.custom else t.custom["id" := Str(t.id)];
    Obj(if t.typ == "" then withId else withId["type" := Str(t.typ)])
  }

  /** A list of typed ids as a client sends it: a single object for one entry, an array otherwise. */
  function TypedIDsValue(ts: seq<TypedID>): Value {
    if |ts| == 1 then TypedIDValue(ts[0])
    else Arr(seq(|ts|, i requires 0 <= i < |ts| => TypedIDValue(ts[i])))
  }

  /** Decoding inverts encoding for one typed id. */
  lemma TypedIDRoundTrip(t: TypedID)
    requires WellFormedTypedID(t)
    ensures TypedIDOf(TypedIDValue(t)) == Some(t)
  {
    var fields := TypedIDValue(t).fields;
    assert StringField(fields, "id") == Some(t.id);
    assert StringField(fields, "type") == Some(t.typ);
    assert fields - {"id", "type"} == t.custom;
  }

  /** Decoding inverts encoding element by element for an array of typed ids. */
  lemma {:induction false} TypedIDsRoundTrip(ts: seq<TypedID>)
    requires forall i :: 0 <= i < |ts| ==> WellFormedTypedID(ts[i])
    ensures TypedIDsOf(seq(|ts|, i requires 0 <= i < |ts| => TypedIDValue(ts[i]))) == Some(ts)
  {
    var items := seq(|ts|, i requires 0 <= i < |ts| => TypedIDValue(ts[i]));
    if |ts| > 0 {
      TypedIDRoundTrip(ts[0]);
      assert items[1..] == seq(|ts[1..]|, i requires 0 <= i < |ts[1..]| => TypedIDValue(ts[1..][i]));
      TypedIDsRoundTrip(ts[1..]);
      assert [ts[0]] + ts[1..] == ts;
    }
  }

  /**
   * Terms of use round-trip in both shapes a client may send: whatever list of
   * well-formed typed ids is encoded, as one object or as an array, decodes back to it.
   */
  lemma TermsOfUseRoundTrip(ts: seq<TypedID>)
    requires forall i :: 0 <= i < |ts| ==> WellFormedTypedID(ts[i])
    ensures DecodeTypedIDs(Some(TypedIDsValue(ts))) == Success(ts)
  {
    if |ts| == 1 {
      TypedIDRoundTrip(ts[0]);
      assert [ts[0]] == ts;
    } else {
      TypedIDsRoundTrip(ts);
    }
  }

  // ---------------------------------------------------------------------------
  // credential subject, evidence

  /**
   * The credential subject as the code computes it: the claims decoded into a map,
   * then `id` set to the request subject. Claims that are JSON `null` decode into the
   * nil map, and the write of `id` into it crashes the handler.
   */
  function SubjectAsWritten(claims: Option<Value>, subject: string): (r: Handled<Result<map<string, Value>, Error>>)
    ensures r.Crashed? <==> claims == Some(Null)
    ensures r.Completed? && r.result.Success? ==> "id" in r.result.value && r.result.value["id"] == Str(subject)
  {
    match claims
    case None => Completed(Success(map["id" := Str(subject)]))
    case Some(Obj(fields)) => Completed(Success(fields["id" := Str(subject)]))
    case Some(Null) => Crashed
    case Some(_) => Completed(Failure(ClaimsNotObject))
  }

  /** A request with `"claims": null` crashes the compose-and-issue handler as written. */
  lemma NullClaimsCrash(subject: string)
    ensures SubjectAsWritten(Some(Null), subject) == Crashed
  {
  }

  /** The keys the decoded claims contribute, none for absent or `null` claims. */
  function ClaimKeys(claims: Option<Value>): set<string> {
    if claims.Some? && claims.value.Obj? then claims.value.fields.Keys else {}
  }

  /**
   * The credential subject: the claims with `id` overwritten by the request subject.
   * `null` claims count as no claims, which is what the crash above evidently was meant to do.
   */
  function CredentialSubject(claims: Option<Value>, subject: string): (r: Result<map<string, Value>, Error>)
    ensures r.Success? <==> claims.None? || claims.value.Obj? || claims.value.Null?
    ensures r.Failure? ==> r.error == ClaimsNotObject
    ensures r.Success? ==> r.value.Keys == ClaimKeys(claims) + {"id"} && r.value["id"] == Str(subject)
    ensures r.Success? && claims.Some? && claims.value.Obj? ==>
      forall k :: k in claims.value.fields && k != "id" ==> r.value[k] == claims.value.fields[k]
  {
    match claims
    case None => Success(map["id" := Str(subject)])
    case Some(Obj(fields)) => Success(fields["id" := Str(subject)])
    case Some(Null) => Success(map["id" := Str(subject)])
    case Some(_) => Failure(ClaimsNotObject)
  }

  /** The correction changes nothing but the crash: every other request is treated as before. */
  lemma SubjectCorrectionOnlyRemovesCrash(claims: Option<Value>, subject: string)
    ensures claims != Some(Null) ==> SubjectAsWritten(claims, subject) == Completed(CredentialSubject(claims, subject))
    ensures claims == Some(Null) ==> CredentialSubject(claims, subject) == CredentialSubject(None, subject)
  {
  }

  /** Evidence must decode into a map; `null` is kept as the nil map. */
  function EvidenceOf(raw: Option<Value>): (r: Result<Option<Value>, Error>)
    ensures r.Success? <==> raw.None? || raw.value.Obj? || raw.value.Null?
    ensures r.Success? ==> r.value == raw
    ensures r.Failure? ==> r.error == EvidenceNotObject
  {
    match raw
    case None => Success(None)
    case Some(v) => if AsObject(v).Some? then Success(Some(v)) else Failure(EvidenceNotObject)
  }

  // ---------------------------------------------------------------------------
  // the credential

  /**
   * The unsigned credential of a compose-and-issue request. Failures are reported in
   * the order the fields are decoded: claims, terms of use, evidence.
   */
  function BuildCredential(req: ComposeRequest): (r: Result<Credential, Error>)
    ensures CredentialSubject(req.claims, req.subject).Failure? ==> r == Failure(ClaimsNotObject)
    ensures CredentialSubject(req.claims, req.subject).Success? && DecodeTypedIDs(req.termsOfUse).Failure? ==>
      r == Failure(MalformedTypedId)
    ensures r.Success? <==>
      CredentialSubject(req.claims, req.subject).Success? && DecodeTypedIDs(req.termsOfUse).Success? &&
      EvidenceOf(req.evidence).Success?
    ensures r.Success? ==>
      && r.value.context == [W3CCredentialsContext]
      && r.value.types == (if |req.types| == 0 then [DefaultCredentialType] else req.types)
      && r.value.subject.Obj?
      && r.value.subject.fields == CredentialSubject(req.claims, req.subject).value
      && r.value.issuer == Issuer(req.issuer, "")
      && r.value.issued == req.issuanceDate && r.value.expired == req.expirationDate
      && r.value.termsOfUse == DecodeTypedIDs(req.termsOfUse).value
      && r.value.evidence == req.evidence
      && r.value.id == "" && r.value.status.None? && r.value.proofs == []
  {
    var subject :- CredentialSubject(req.claims, req.subject);
    var termsOfUse :- DecodeTypedIDs(req.termsOfUse);
    var evidence :- EvidenceOf(req.evidence);
    Success(EmptyCredential.(
      context := [W3CCredentialsContext],
      issued := req.issuanceDate,
      expired := req.expirationDate,
      types := if |req.types| != 0 then req.types else [DefaultCredentialType],
      subject := Obj(subject),
      issuer := Issuer(req.issuer, ""),
      termsOfUse := termsOfUse,
      evidence := evidence))
  }

  /**
   * Terms of use pass through composition unchanged: a request whose terms are a list
   * of well-formed typed ids, in either client shape, builds a credential carrying
   * exactly that list.
   */
  lemma BuildCredentialKeepsTermsOfUse(req: ComposeRequest, ts: seq<TypedID>)
    requires forall i :: 0 <= i < |ts| ==> WellFormedTypedID(ts[i])
    requires req.termsOfUse == Some(TypedIDsValue(ts))
    requires req.claims.None? && req.evidence.None?
    ensures BuildCredential(req).Success? && BuildCredential(req).value.termsOfUse == ts
  {
    TermsOfUseRoundTrip(ts);
  }
}

=== FILE: credentials.dfy ===
/**
 * The entities the credential service passes around: verifiable credentials,
 * their typed-id parts (status references, terms of use), issuer profiles and
 * DID documents. Field names follow the W3C verifiable-credential data model
 * as the service uses it; JSON-shaped parts are decoded `Json.Value`s.
 */
module Credentials {
  import opened Wrappers
  import Json

  /** A point in time; the clock is outside the model. */
  type Time = int

  /** The raw bytes of a JSON document as received on the wire. */
  type Bytes = string

  /** How a signature is embedded in a proof: a detached JWS or a proof value. */
  datatype SignatureRepresentation = SignatureJWS | SignatureProofValue

  /**
   * An `{id, type, ...}` object: the shape of a credential status reference and of a
   * terms-of-use entry. `custom` holds every other field of the object.
   */
  datatype TypedID = TypedID(id: string, typ: string, custom: map<string, Json.Value>)

  datatype Issuer = Issuer(id: string, name: string)

  /** A proof appended by a signature suite; its content is opaque to the service. */
  datatype Proof = Proof(typ: string, value: string)

  datatype Credential = Credential(
    context: seq<string>,
    id: string,
    types: seq<string>,
    subject: Json.Value,
    issuer: Issuer,
    issued: Option<Time>,
    expired: Option<Time>,
    status: Option<TypedID>,
    termsOfUse: seq<TypedID>,
    evidence: Option<Json.Value>,
    proofs: seq<Proof>)

  /** A credential with nothing set, the zero value the service starts from. */
  const EmptyCredential: Credential :=
    Credential([], "", [], Json.Null, Issuer("", ""), None, None, None, [], None, [])

  /** A tenant profile: the issuing identity and its signing configuration. */
  datatype DataProfile = DataProfile(
    name: string,
    uri: string,
    did: string,
    signatureType: string,
    signatureRepresentation: SignatureRepresentation,
    creator: string,
    created: Time,
    didPrivateKey: string)

  /** The profile store keys every profile by its own name. */
  predicate SavedUnderName(profiles: map<string, DataProfile>) {
    forall n :: n in profiles ==> profiles[n].name == n
  }

  /** One entry of a DID document's `publicKey` list. */
  datatype PublicKey = PublicKey(id: string, typ: string)

  /** One entry of a DID document's `authentication` list. */
  datatype VerificationMethod = VerificationMethod(publicKey: PublicKey)

  datatype DidDoc = DidDoc(id: string, publicKeys: seq<PublicKey>, authentication: seq<VerificationMethod>)
}

=== FILE: errors.dfy ===
/**
 * Every failure the credential service reports, and the HTTP status class the
 * handlers attach to it. Messages produced by external components (the DID
 * resolver, the signature suites, the stores) travel as opaque `reason` text.
 */
module Errors {

  datatype Error =
    // mode routing
    | InvalidMode(mode: string)
    // request validation
    | MissingProfileName
    | MissingUri
    | MissingSignatureType
    | InvalidUri(uri: string)
    | MissingCredentialId
    // DID documents and profiles
    | PublicKeyNotFound
    | DidCreationFailed(reason: string)
    | DidResolutionFailed(reason: string)
    | ProfileSaveFailed(reason: string)
    | VaultCreationFailed(reason: string)
    | ProfileNotFound
    | ProfileReadFailed(reason: string)
    // compose-and-issue request shaping
    | InvalidProofFormat(format: string)
    | OptionsNotObject
    | InvalidKidType
    | ClaimsNotObject
    | EvidenceNotObject
    | MalformedTypedId
    // issuance
    | StatusIdFailed(reason: string)
    | InvalidCredential(reason: string)
    | SignFailed(reason: string)
    | StatusUpdateFailed(reason: string)
    // verification
    | CredentialNotVerified(reason: string)
    | StatusListUnavailable(reason: string)
    | StatusCredentialInvalid(reason: string)
    | MissingStatus
    // confidential storage
    | MappingLookupFailed(reason: string)
    | IdGenerationFailed(reason: string)
    | MarshalFailed(reason: string)
    | PackFailed(reason: string)
    | DocumentWriteFailed(reason: string)
    | MappingWriteFailed(reason: string)
    | MappingNotFound
    | DocumentReadFailed(reason: string)
    | UnpackFailed

  const BadRequest: nat := 400
  const NotFound: nat := 404
  const InternalServerError: nat := 500

  /** A failed request as a handler writes it: the status code and the cause. */
  datatype HttpError = HttpError(code: nat, cause: Error)
}

=== FILE: issuance.dfy ===
/**
 * Issuance: building a profile's credential (identifier, issuer, status
 * reference), and signing, either with a stored profile or, for
 * compose-and-issue, with the key selected from the signer's DID document.
 *
 * The clock, the identifier generator, the status manager, the credential
 * parser, DID resolution and the signature suite are oracles given as
 * parameters.
 */
module Issuance {
  import opened Wrappers
  import opened Errors
  import opened Credentials
  import opened Json
  import Keys
  import Compose
  import Verification

  const Ed25519Signature2018 := "Ed25519Signature2018"

  /** The body of a create-credential request. */
  datatype CreateCredentialRequest = CreateCredentialRequest(
    profile: string,
    context: seq<string>,
    types: seq<string>,
    subject: Value)

  /** DID resolution: the DID document of an identifier, or the resolver's error text. */
  type Resolver = string -> Result<DidDoc, string>

  /** The signature suite: signs a credential with the key and format a profile names. */
  type Signer = (DataProfile, Credential) -> Result<Credential, string>

  /** The credential of a profile as it is assembled, before the library validates it. */
  function ProfileCredential(
    profile: DataProfile, req: CreateCredentialRequest, now: Time, freshId: string, status: TypedID): Credential
  {
    EmptyCredential.(
      context := req.context,
      subject := req.subject,
      types := req.types,
      issuer := Issuer(profile.did, profile.name),
      issued := Some(now),
      id := profile.uri + "/" + freshId,
      status := Some(status))
  }

  /** The credential library's validation of a credential: nothing when it accepts, otherwise its reason. */
  type Validator = Credential -> Option<string>

  /** How a refusal of the credential library is reported, followed by its reason. */
  const CreateFailedPrefix := "failed to create new credential: "

  /**
   * The unsigned credential of a profile: a fresh identifier under the profile's URI
   * namespace, the profile as issuer, the current time as issuance date and a status
   * reference from the status manager. `accepts` stands for the credential library's
   * validation of the result; its refusal reason is carried in the error.
   */
  function CreateCredential(
    profile: DataProfile, req: CreateCredentialRequest, now: Time, freshId: string,
    statusId: Result<TypedID, string>, accepts: Validator): (r: Result<Credential, Error>)
    ensures statusId.Failure? ==> r == Failure(StatusIdFailed(statusId.error))
    ensures statusId.Success? ==>
      (r.Success? <==> accepts(ProfileCredential(profile, req, now, freshId, statusId.value)).None?)
    ensures statusId.Success? && accepts(ProfileCredential(profile, req, now, freshId, statusId.value)).Some? ==>
      r == Failure(InvalidCredential(CreateFailedPrefix + accepts(ProfileCredential(profile, req, now, freshId, statusId.value)).value))
    ensures statusId.Success? && r.Failure? ==> r.error.InvalidCredential?
    ensures r.Success? ==>
      && accepts(r.value).None?
      && r.value.id == profile.uri + "/" + freshId
      && r.value.issuer == Issuer(profile.did, profile.name)
      && r.value.issued == Some(now)
      && r.value.status == Some(statusId.value)
      && r.value.context == req.context && r.value.types == req.types && r.value.subject == req.subject
      && r.value.proofs == []
      && r.value.expired.None? && r.value.termsOfUse == [] && r.value.evidence.None?
  {
    match statusId
    case Failure(e) => Failure(StatusIdFailed(e))
    case Success(status) =>
      var validated := ProfileCredential(profile, req, now, freshId, status);
      match accepts(validated) {
        case None => Success(validated)
        case Some(reason) => Failure(InvalidCredential(CreateFailedPrefix + reason))
      }
  }

  /**
   * Identifiers are scoped under the profile's URI namespace, and distinct fresh
   * identifiers give distinct credential identifiers.
   */
  lemma CredentialIdsAreScopedAndDistinct(
    profile: DataProfile, req: CreateCredentialRequest, now: Time, id1: string, id2: string,
    statusId: Result<TypedID, string>, accepts: Validator)
    requires CreateCredential(profile, req, now, id1, statusId, accepts).Success?
    requires CreateCredential(profile, req, now, id2, statusId, accepts).Success?
    ensures HasPrefix(CreateCredential(profile, req, now, id1, statusId, accepts).value.id, profile.uri + "/")
    ensures id1 != id2 ==>
      CreateCredential(profile, req, now, id1, statusId, accepts).value.id !=
      CreateCredential(profile, req, now, id2, statusId, accepts).value.id
  {
    var ns := profile.uri + "/";
    var a, b := ns + id1, ns + id2;
    assert a[..|ns|] == ns;
    if a == b {
      assert id1 == a[|ns|..] == b[|ns|..] == id2;
    }
  }

  /** The signing configuration used when no stored profile is involved. */
  function SigningProfile(creator: string, rep: SignatureRepresentation): (p: DataProfile)
    ensures p.creator == creator && p.signatureType == Ed25519Signature2018 && p.signatureRepresentation == rep
  {
    DataProfile("", "", "", Ed25519Signature2018, rep, creator, 0, "")
  }

  /**
   * Signs a credential as `didId`: resolves the DID, selects its signing key and
   * signs with an Ed25519Signature2018 suite in the requested representation.
   */
  function SignCredential(
    credential: Credential, didId: string, rep: SignatureRepresentation,
    resolve: Resolver, sign: Signer): (r: Result<Credential, Error>)
    ensures resolve(didId).Failure? ==> r == Failure(DidResolutionFailed(resolve(didId).error))
    ensures resolve(didId).Success? && Keys.PublicKeyId(resolve(didId).value).Failure? ==> r == Failure(PublicKeyNotFound)
    ensures r.Success? ==>
      && resolve(didId).Success?
      && var key := Keys.PublicKeyId(resolve(didId).value);
      && key.Success?
      && sign(SigningProfile(key.value, rep), credential) == Success(r.value)
    ensures resolve(didId).Success? && Keys.PublicKeyId(resolve(didId).value).Success? ==>
      var signed := sign(SigningProfile(Keys.PublicKeyId(resolve(didId).value).value, rep), credential);
      && (signed.Success? ==> r == Success(signed.value))
      && (signed.Failure? ==> r == Failure(SignFailed(signed.error)))
  {
    match resolve(didId)
    case Failure(e) => Failure(DidResolutionFailed(e))
    case Success(doc) =>
      var keyId :- Keys.PublicKeyId(doc);
      match sign(SigningProfile(keyId, rep), credential)
      case Failure(e) => Failure(SignFailed(e))
      case Success(signed) => Success(signed)
  }

  /**
   * The compose-and-issue pipeline: build the credential, resolve the proof format,
   * pick the signer DID, sign. Request faults are client errors (400); only a signing
   * failure, resolution and key selection included, is a server error (500).
   */
  function ComposeAndIssue(req: Compose.ComposeRequest, resolve: Resolver, sign: Signer): (r: Result<Credential, HttpError>)
    ensures r.Failure? && r.error.code == BadRequest <==>
      Compose.BuildCredential(req).Failure? || Compose.RepresentationFor(req.proofFormat).Failure? ||
      Compose.SignerDid(req.issuer, req.proofFormatOptions).Failure?
    ensures r.Failure? ==> r.error.code == BadRequest || r.error.code == InternalServerError
    ensures Compose.BuildCredential(req).Failure? ==> r == Failure(HttpError(BadRequest, Compose.BuildCredential(req).error))
    ensures Compose.BuildCredential(req).Success? && Compose.RepresentationFor(req.proofFormat).Failure? ==>
      r == Failure(HttpError(BadRequest, Compose.RepresentationFor(req.proofFormat).error))
    ensures (Compose.BuildCredential(req).Success? && Compose.RepresentationFor(req.proofFormat).Success? &&
             Compose.SignerDid(req.issuer, req.proofFormatOptions).Failure?) ==>
      r == Failure(HttpError(BadRequest, Compose.SignerDid(req.issuer, req.proofFormatOptions).error))
    ensures (Compose.BuildCredential(req).Success? && Compose.RepresentationFor(req.proofFormat).Success? &&
             Compose.SignerDid(req.issuer, req.proofFormatOptions).Success?) ==>
      var signed := SignCredential(Compose.BuildCredential(req).value, Compose.SignerDid(req.issuer, req.proofFormatOptions).value,
        Compose.RepresentationFor(req.proofFormat).value, resolve, sign);
      && (signed.Success? ==> r == Success(signed.value))
      && (signed.Failure? ==> r == Failure(HttpError(InternalServerError, signed.error)))
    ensures r.Success? ==>
      && Compose.BuildCredential(req).Success?
      && Compose.RepresentationFor(req.proofFormat).Success?
      && Compose.SignerDid(req.issuer, req.proofFormatOptions).Success?
      && SignCredential(Compose.BuildCredential(req).value, Compose.SignerDid(req.issuer, req.proofFormatOptions).value,
           Compose.RepresentationFor(req.proofFormat).value, resolve, sign) == Success(r.value)
  {
    match Compose.BuildCredential(req)
    case Failure(e) => Failure(HttpError(BadRequest, e))
    case Success(credential) =>
      match Compose.RepresentationFor(req.proofFormat)
      case Failure(e) => Failure(HttpError(BadRequest, e))
      case Success(rep) =>
        match Compose.SignerDid(req.issuer, req.proofFormatOptions)
        case Failure(e) => Failure(HttpError(BadRequest, e))
        case Success(signer) =>
          match SignCredential(credential, signer, rep, resolve, sign)
          case Failure(e) => Failure(HttpError(InternalServerError, e))
          case Success(signed) => Success(signed)
  }

  /**
   * A non-empty `kid` in the proof format options replaces the issuer as the DID
   * whose key signs: the issuer's DID document is never consulted.
   */
  lemma KidSelectsSigningDid(req: Compose.ComposeRequest, kid: string, resolve: Resolver, resolve': Resolver, sign: Signer)
    requires kid != ""
    requires req.proofFormatOptions == Some(Obj(map[Compose.KeyIdOption := Str(kid)]))
    requires resolve(kid) == resolve'(kid)
    ensures ComposeAndIssue(req, resolve, sign) == ComposeAndIssue(req, resolve', sign)
  {
    assert Compose.SignerDid(req.issuer, req.proofFormatOptions) == Success(kid);
  }

  /** A stored-profile issuance request as the create-credential handler serves it. */
  function IssueForProfile(
    profiles: map<string, DataProfile>, req: CreateCredentialRequest, now: Time, freshId: string,
    statusId: Result<TypedID, string>, accepts: Validator, sign: Signer): (r: Result<Credential, HttpError>)
    ensures req.profile !in profiles ==> r == Failure(HttpError(BadRequest, ProfileNotFound))
    ensures r.Failure? && r.error.code == InternalServerError ==> r.error.cause.SignFailed?
    ensures r.Success? ==>
      && req.profile in profiles
      && var built := CreateCredential(profiles[req.profile], req, now, freshId, statusId, accepts);
      && built.Success?
      && sign(profiles[req.profile], built.value) == Success(r.value)
    ensures req.profile in profiles ==>
      var built := CreateCredential(profiles[req.profile], req, now, freshId, statusId, accepts);
      && (built.Failure? ==> r == Failure(HttpError(BadRequest, built.error)))
      && (built.Success? && sign(profiles[req.profile], built.value).Failure? ==>
            r == Failure(HttpError(InternalServerError, SignFailed(sign(profiles[req.profile], built.value).error))))
      && (built.Success? && sign(profiles[req.profile], built.value).Success? ==>
            r == Success(sign(profiles[req.profile], built.value).value))
  {
    if req.profile !in profiles then Failure(HttpError(BadRequest, ProfileNotFound))
    else
      var profile := profiles[req.profile];
      match CreateCredential(profile, req, now, freshId, statusId, accepts)
      case Failure(e) => Failure(HttpError(BadRequest, e))
      case Success(credential) =>
        match sign(profile, credential)
        case Failure(e) => Failure(HttpError(InternalServerError, SignFailed(e)))
        case Success(signed) => Success(signed)
  }

  /** The body of an issue-credential request: a complete credential and the DID to sign it as. */
  datatype IssueCredentialRequest = IssueCredentialRequest(credential: Bytes, assertionMethod: string)

  /**
   * Signs a caller-supplied credential: it must parse (without proof checking, here
   * `validate`) and is then signed as the request's assertion method, always as a JWS.
   */
  function IssueCredential(req: IssueCredentialRequest, validate: Verification.Parser, resolve: Resolver, sign: Signer): (r: Result<Credential, HttpError>)
    ensures validate(req.credential).Failure? ==>
      r == Failure(HttpError(BadRequest, InvalidCredential(validate(req.credential).error)))
    ensures validate(req.credential).Success? ==>
      var signed := SignCredential(validate(req.credential).value, req.assertionMethod, SignatureJWS, resolve, sign);
      && (signed.Success? ==> r == Success(signed.value))
      && (signed.Failure? ==> r == Failure(HttpError(InternalServerError, signed.error)))
  {
    match validate(req.credential)
    case Failure(e) => Failure(HttpError(BadRequest, InvalidCredential(e)))
    case Success(credential) =>
      match SignCredential(credential, req.assertionMethod, SignatureJWS, resolve, sign)
      case Failure(e) => Failure(HttpError(InternalServerError, e))
      case Success(signed) => Success(signed)
  }

  /** The body of a status-update request. */
  datatype UpdateStatusRequest = UpdateStatusRequest(credential: Bytes, status: string, statusReason: string)

  /** The status manager's update: `None` on success, the error text otherwise. */
  type StatusUpdater = (Credential, DataProfile, string, string) -> Option<string>

  /**
   * Updates the status of a credential: the credential must verify, and its issuer's
   * name selects the profile whose status list is updated. Every failure is a client error.
   */
  function UpdateCredentialStatus(
    profiles: map<string, DataProfile>, req: UpdateStatusRequest, parse: Verification.Parser,
    update: StatusUpdater): (r: Option<HttpError>)
    ensures r.Some? ==> r.value.code == BadRequest
    ensures parse(req.credential).Failure? ==>
      r == Some(HttpError(BadRequest, CredentialNotVerified(parse(req.credential).error)))
    ensures parse(req.credential).Success? && parse(req.credential).value.issuer.name !in profiles ==>
      r == Some(HttpError(BadRequest, ProfileNotFound))
    ensures r.None? <==>
      && parse(req.credential).Success?
      && var vc := parse(req.credential).value;
      && vc.issuer.name in profiles
      && update(vc, profiles[vc.issuer.name], req.status, req.statusReason).None?
  {
    match parse(req.credential)
    case Failure(e) => Some(HttpError(BadRequest, CredentialNotVerified(e)))
    case Success(vc) =>
      if vc.issuer.name !in profiles then Some(HttpError(BadRequest, ProfileNotFound))
      else match update(vc, profiles[vc.issuer.name], req.status, req.statusReason) {
        case Some(e) => Some(HttpError(BadRequest, StatusUpdateFailed(e)))
        case None => None
      }
  }

  // ---------------------------------------------------------------------------
  // issuance end to end

  /** A signature suite that only appends proofs, leaving every other field of the credential as it was. */
  ghost predicate OnlyAddsProofs(sign: Signer) {
    forall p, c :: sign(p, c).Success? ==> sign(p, c).value.(proofs := c.proofs) == c
  }

  const ExampleIssuer := Keys.DidPrefix + "example:76e12ec712ebc6f1c221ebfeb1f"
  const ExampleKey := Keys.DidPrefix + "example:76e12ec712ebc6f1c221ebfeb1f#keys-1"

  /**
   * A minimal compose-and-issue request with a resolvable issuer: the credential is
   * signed with the issuer's Ed25519 key as Ed25519Signature2018, in JWS form, and
   * carries the default type and the issuer.
   */
  lemma ComposeAndIssueExample()
    ensures
      var req := Compose.ComposeRequest(ExampleIssuer, "did:example:subject", [], None, None, None, None, None, "", None);
      var doc := DidDoc(ExampleIssuer, [PublicKey(ExampleKey, "Ed25519VerificationKey2018")], []);
      var resolve: Resolver := did => if did == ExampleIssuer then Success(doc) else Failure("not found");
      var sign: Signer := (p: DataProfile, c: Credential) =>
        Success(c.(proofs := c.proofs + [Proof(p.signatureType, p.creator)]));
      var r := ComposeAndIssue(req, resolve, sign);
      && r.Success?
      && r.value.proofs == [Proof(Ed25519Signature2018, ExampleKey)]
      && r.value.issuer == Issuer(ExampleIssuer, "")
      && r.value.types == [Compose.DefaultCredentialType]
  {
    var doc := DidDoc(ExampleIssuer, [PublicKey(ExampleKey, "Ed25519VerificationKey2018")], []);
    assert Keys.IsEd25519(doc.publicKeys[0]) by {
      assert "Ed25519VerificationKey2018"[..|Keys.Ed25519VerificationKey|] == Keys.Ed25519VerificationKey;
    }
    assert Keys.IsDID(ExampleKey) by {
      assert ExampleKey[..|Keys.DidPrefix|] == Keys.DidPrefix;
    }
    assert Keys.PublicKeyId(doc) == Success(ExampleKey);
  }

  /**
   * Compose-and-issue in JWS form without a `kid` is building the credential and then
   * issuing it as the issuer: both endpoints give the same answer, errors included.
   */
  lemma ComposeIsBuildThenIssue(
    req: Compose.ComposeRequest, raw: Bytes, validate: Verification.Parser, resolve: Resolver, sign: Signer)
    requires Compose.BuildCredential(req).Success?
    requires req.proofFormat == "" || req.proofFormat == Compose.JwsFormat
    requires req.proofFormatOptions.None?
    requires validate(raw) == Success(Compose.BuildCredential(req).value)
    ensures ComposeAndIssue(req, resolve, sign) == IssueCredential(IssueCredentialRequest(raw, req.issuer), validate, resolve, sign)
  {
  }

  /**
   * A credential issued for a stored profile can have its status updated: its issuer
   * name leads back to the profile it was issued for, provided the suite only adds
   * proofs and the store keys profiles by name.
   */
  lemma IssuedCredentialStatusIsUpdatable(
    profiles: map<string, DataProfile>, req: CreateCredentialRequest, now: Time, freshId: string,
    statusId: Result<TypedID, string>, accepts: Validator, sign: Signer,
    raw: Bytes, parse: Verification.Parser, update: StatusUpdater, status: string, reason: string)
    requires OnlyAddsProofs(sign) && SavedUnderName(profiles)
    requires IssueForProfile(profiles, req, now, freshId, statusId, accepts, sign).Success?
    requires parse(raw) == Success(IssueForProfile(profiles, req, now, freshId, statusId, accepts, sign).value)
    requires req.profile in profiles ==>
      update(parse(raw).value, profiles[req.profile], status, reason).None?
    ensures UpdateCredentialStatus(profiles, UpdateStatusRequest(raw, status, reason), parse, update).None?
  {
    var profile := profiles[req.profile];
    var built := CreateCredential(profile, req, now, freshId, statusId, accepts).value;
    var issued := parse(raw).value;
    assert sign(profile, built).Success?;
    assert issued.(proofs := built.proofs) == built;
    assert issued.issuer.name == profile.name == req.profile;
  }
}

=== FILE: json.dfy ===
/**
 * Decoded JSON values and the two string tests the service relies on
 * (Go's `strings.HasPrefix` and `strings.Contains`).
 *
 * Numbers are integers: no part of the modelled logic inspects a number.
 */
module Json {

  datatype Value =
    | Null
    | Bool(b: bool)
    | Num(n: int)
    | Str(s: string)
    | Arr(items: seq<Value>)
    | Obj(fields: map<string, Value>)

  /** `strings.HasPrefix(s, prefix)`. */
  predicate HasPrefix(s: string, prefix: string) {
    |prefix| <= |s| && s[..|prefix|] == prefix
  }

  /** `strings.Contains(s, sub)`: `sub` occurs somewhere in `s` (the empty string occurs everywhere). */
  predicate Contains(s: string, sub: string)
    decreases |s|
  {
    HasPrefix(s, sub) || (|s| > 0 && Contains(s[1..], sub))
  }

  /** A prefix of a string is still a prefix once something is appended. */
  lemma HasPrefixOfAppend(s: string, t: string, prefix: string)
    requires HasPrefix(s, prefix)
    ensures HasPrefix(s + t, prefix)
  {
    assert (s + t)[..|prefix|] == s[..|prefix|];
  }

  /**
   * Whatever contains `sub + more` contains `sub`: a substring test for one identifier
   * also succeeds on text that mentions any longer identifier it is a prefix of.
   */
  lemma {:induction false} ContainsExtension(s: string, sub: string, more: string)
    requires Contains(s, sub + more)
    ensures Contains(s, sub)
    decreases |s|
  {
    if HasPrefix(s, sub + more) {
      assert s[..|sub|] == (sub + more)[..|sub|] == sub;
    } else {
      ContainsExtension(s[1..], sub, more);
    }
  }
}

=== FILE: keys.dfy ===
/**
 * Signing-key selection: which key of a DID document becomes a profile's
 * creator key, or the key a compose-and-issue request is signed with.
 */
module Keys {
  import opened Wrappers
  import opened Errors
  import opened Credentials
  import opened Json

  const Ed25519VerificationKey := "Ed25519VerificationKey"
  const DidPrefix := "did:"

  /** An identifier already in DID form. */
  predicate IsDID(s: string) {
    HasPrefix(s, DidPrefix)
  }

  /** A key of the supported verification-key family; the type only has to start with the family name. */
  predicate IsEd25519(k: PublicKey) {
    HasPrefix(k.typ, Ed25519VerificationKey)
  }

  /** `keys[i]` is the first Ed25519 key of the list. */
  predicate FirstEd25519At(keys: seq<PublicKey>, i: nat) {
    && i < |keys|
    && IsEd25519(keys[i])
    && forall j :: 0 <= j < i ==> !IsEd25519(keys[j])
  }

  /** The position of the first Ed25519 key, if there is one. */
  function FirstEd25519(keys: seq<PublicKey>): (r: Option<nat>)
    ensures r.Some? ==> FirstEd25519At(keys, r.value)
    ensures r.None? ==> forall j :: 0 <= j < |keys| ==> !IsEd25519(keys[j])
  {
    if |keys| == 0 then None
    else if IsEd25519(keys[0]) then Some(0)
    else match FirstEd25519(keys[1..]) {
      case None => None
      case Some(i) => Some(i + 1)
    }
  }

  /**
   * The key id a DID document offers for signing.
   *
   * With a non-empty `publicKey` list the first Ed25519 key is taken; an id that is
   * not in DID form (also the empty id left when no key matches) is prefixed with the
   * document id, a compatibility branch for key ids given as bare fragments. Only when
   * the `publicKey` list is empty is the first authentication key used.
   */
  function PublicKeyId(doc: DidDoc): (r: Result<string, Error>)
    ensures r.Failure? <==> |doc.publicKeys| == 0 && |doc.authentication| == 0
    ensures r.Failure? ==> r.error == PublicKeyNotFound
    ensures |doc.publicKeys| > 0 && (forall j :: 0 <= j < |doc.publicKeys| ==> !IsEd25519(doc.publicKeys[j])) ==>
      r == Success(doc.id)
    ensures forall i: nat :: FirstEd25519At(doc.publicKeys, i) ==>
      r == Success(if IsDID(doc.publicKeys[i].id) then doc.publicKeys[i].id else doc.id + doc.publicKeys[i].id)
    ensures |doc.publicKeys| == 0 && |doc.authentication| > 0 ==> r == Success(doc.authentication[0].publicKey.id)
  {
    if |doc.publicKeys| > 0 then
      var keyId := match FirstEd25519(doc.publicKeys) {
        case Some(i) => doc.publicKeys[i].id
        case None => ""
      };
      assert keyId == "" ==> doc.id + keyId == doc.id;
      if !IsDID(keyId) then Success(doc.id + keyId) else Success(keyId)
    else if |doc.authentication| > 0 then
      Success(doc.authentication[0].publicKey.id)
    else
      Failure(PublicKeyNotFound)
  }

  /**
   * The authentication list is consulted only when the public-key list is empty:
   * replacing it changes nothing for a document that lists public keys.
   */
  lemma AuthenticationIgnoredWithPublicKeys(doc: DidDoc, authentication: seq<VerificationMethod>)
    requires |doc.publicKeys| > 0
    ensures PublicKeyId(doc.(authentication := authentication)) == PublicKeyId(doc)
  {
  }

  /**
   * For a document whose own id is a DID, a key chosen from its public-key list
   * is always in DID form, whether taken as is or prefixed with the document id.
   */
  lemma SelectedKeyIsDid(doc: DidDoc)
    requires IsDID(doc.id) && |doc.publicKeys| > 0
    ensures PublicKeyId(doc).Success? && IsDID(PublicKeyId(doc).value)
  {
    var keyId := match FirstEd25519(doc.publicKeys) {
      case Some(i) => doc.publicKeys[i].id
      case None => ""
    };
    if !IsDID(keyId) {
      HasPrefixOfAppend(doc.id, keyId, DidPrefix);
    }
  }
}

=== FILE: profiles.dfy ===
/**
 * Profile creation: validate the request, obtain the profile's DID document
 * (a new DID, or the resolution of the one given), select its signing key,
 * save the profile and provision the profile's vault.
 */
module Profiles {
  import opened Wrappers
  import opened Errors
  import opened Credentials
  import Validation
  import Keys

  /** The saved profiles by name, and the vaults provisioned so far (named after their profile). */
  datatype ProfileState = ProfileState(profiles: map<string, DataProfile>, vaults: set<string>)

  /** What the profile store and the vault service answer during one request. */
  datatype ProfilePorts = ProfilePorts(saveFault: Option<string>, vaultFault: Option<string>)

  /** A DID service: creates a DID in a domain, or resolves one; either gives the DID document. */
  type DidService = string -> Result<DidDoc, string>

  datatype ProfileOutcome = ProfileOutcome(state: ProfileState, result: Result<DataProfile, Error>)

  /**
   * Creates a profile. Without a DID in the request a new one is created in `domain`;
   * otherwise the given DID is resolved. The creator key is the key selected from the
   * DID document. The profile is saved before its vault is provisioned, so a vault
   * failure reports an error while the saved profile stays.
   */
  function CreateProfile(
    st: ProfileState, pr: Validation.ProfileRequest, parsesAsUri: string -> bool, domain: string,
    createDid: DidService, resolve: DidService, now: Time, ports: ProfilePorts): (r: ProfileOutcome)
    ensures Validation.ValidateProfileRequest(pr, parsesAsUri).Some? ==>
      r == ProfileOutcome(st, Failure(Validation.ValidateProfileRequest(pr, parsesAsUri).value))
    ensures Validation.ValidateProfileRequest(pr, parsesAsUri).None? && pr.did == "" && createDid(domain).Failure? ==>
      r == ProfileOutcome(st, Failure(DidCreationFailed(createDid(domain).error)))
    ensures Validation.ValidateProfileRequest(pr, parsesAsUri).None? && pr.did != "" && resolve(pr.did).Failure? ==>
      r == ProfileOutcome(st, Failure(DidResolutionFailed(resolve(pr.did).error)))
    ensures Validation.ValidateProfileRequest(pr, parsesAsUri).None? ==>
      var doc := if pr.did == "" then createDid(domain) else resolve(pr.did);
      && (doc.Success? && Keys.PublicKeyId(doc.value).Failure? ==> r == ProfileOutcome(st, Failure(PublicKeyNotFound)))
      && (doc.Success? && Keys.PublicKeyId(doc.value).Success? && ports.saveFault.Some? ==>
            r == ProfileOutcome(st, Failure(ProfileSaveFailed(ports.saveFault.value))))
      && (doc.Success? && Keys.PublicKeyId(doc.value).Success? && ports.saveFault.None? && ports.vaultFault.Some? ==>
            r == ProfileOutcome(
              st.(profiles := st.profiles[pr.name := DataProfile(pr.name, pr.uri, doc.value.id, pr.signatureType,
                pr.signatureRepresentation, Keys.PublicKeyId(doc.value).value, now, pr.didPrivateKey)]),
              Failure(VaultCreationFailed(ports.vaultFault.value))))
      && (doc.Success? && Keys.PublicKeyId(doc.value).Success? && ports.saveFault.None? && ports.vaultFault.None? ==>
            r.result.Success?)
    ensures r.result.Success? ==>
      && Validation.ValidateProfileRequest(pr, parsesAsUri).None?
      && var doc := if pr.did == "" then createDid(domain) else resolve(pr.did);
      && doc.Success?
      && Keys.PublicKeyId(doc.value).Success?
      && r.result.value == DataProfile(pr.name, pr.uri, doc.value.id, pr.signatureType,
           pr.signatureRepresentation, Keys.PublicKeyId(doc.value).value, now, pr.didPrivateKey)
      && r.state.profiles == st.profiles[pr.name := r.result.value]
      && r.state.vaults == st.vaults + {pr.name}
    ensures r.result.Failure? && r.result.error.VaultCreationFailed? ==>
      pr.name in r.state.profiles && r.state.vaults == st.vaults
    ensures r.result.Failure? && !r.result.error.VaultCreationFailed? ==> r.state == st
  {
    match Validation.ValidateProfileRequest(pr, parsesAsUri)
    case Some(e) => ProfileOutcome(st, Failure(e))
    case None =>
      var docResult :=
        if pr.did == "" then
          (match createDid(domain) {
            case Failure(e) => Failure(DidCreationFailed(e))
            case Success(d) => Success(d)
          })
        else
          (match resolve(pr.did) {
            case Failure(e) => Failure(DidResolutionFailed(e))
            case Success(d) => Success(d)
          });
      match docResult
      case Failure(e) => ProfileOutcome(st, Failure(e))
      case Success(doc) =>
        match Keys.PublicKeyId(doc)
        case Failure(e) => ProfileOutcome(st, Failure(e))
        case Success(creator) =>
          var profile := DataProfile(pr.name, pr.uri, doc.id, pr.signatureType,
            pr.signatureRepresentation, creator, now, pr.didPrivateKey);
          if ports.saveFault.Some? then ProfileOutcome(st, Failure(ProfileSaveFailed(ports.saveFault.value)))
          else
            var saved := st.(profiles := st.profiles[pr.name := profile]);
            if ports.vaultFault.Some? then ProfileOutcome(saved, Failure(VaultCreationFailed(ports.vaultFault.value)))
            else ProfileOutcome(saved.(vaults := st.vaults + {pr.name}), Success(profile))
  }

  /** Looks a profile up by name. */
  function GetProfile(st: ProfileState, name: string): (r: Result<DataProfile, Error>)
    ensures r.Success? <==> name in st.profiles
    ensures r.Success? ==> r.value == st.profiles[name]
    ensures r.Failure? ==> r.error == ProfileNotFound
  {
    if name in st.profiles then Success(st.profiles[name]) else Failure(ProfileNotFound)
  }

  /** A profile that was created successfully can be looked up by its name, and its vault exists. */
  lemma CreatedProfileIsRetrievable(
    st: ProfileState, pr: Validation.ProfileRequest, parsesAsUri: string -> bool, domain: string,
    createDid: DidService, resolve: DidService, now: Time, ports: ProfilePorts)
    requires CreateProfile(st, pr, parsesAsUri, domain, createDid, resolve, now, ports).result.Success?
    ensures var r := CreateProfile(st, pr, parsesAsUri, domain, createDid, resolve, now, ports);
      GetProfile(r.state, pr.name) == Success(r.result.value) && pr.name in r.state.vaults
  {
  }

  /**
   * The get-profile handler. Its not-found branch compares the store's error with a
   * sentinel error of the handler's own package that the profile store never returns,
   * so a profile that is not stored is answered like every other store failure: as a
   * client error (400), carrying the store's not-found error.
   */
  function ServeProfile(st: ProfileState, name: string, readFault: Option<string>): (r: Result<DataProfile, HttpError>)
    ensures readFault.Some? ==> r == Failure(HttpError(BadRequest, ProfileReadFailed(readFault.value)))
    ensures readFault.None? ==> (r.Success? <==> name in st.profiles)
    ensures r.Success? ==> name in st.profiles && r.value == st.profiles[name]
    ensures readFault.None? && name !in st.profiles ==> r == Failure(HttpError(BadRequest, ProfileNotFound))
  {
    if readFault.Some? then Failure(HttpError(BadRequest, ProfileReadFailed(readFault.value)))
    else match GetProfile(st, name) {
      case Success(profile) => Success(profile)
      case Failure(e) => Failure(HttpError(BadRequest, e))
    }
  }

  /** The handler's not-found status is unreachable: every failure is a client error, never a 404. */
  lemma ServeProfileNeverAnswersNotFound(st: ProfileState, name: string, readFault: Option<string>)
    ensures ServeProfile(st, name, readFault).Failure? ==>
      ServeProfile(st, name, readFault).error.code == BadRequest != NotFound
  {
  }

  /** A profile created successfully is served by the get-profile handler while the store reads. */
  lemma CreatedProfileIsServed(
    st: ProfileState, pr: Validation.ProfileRequest, parsesAsUri: string -> bool, domain: string,
    createDid: DidService, resolve: DidService, now: Time, ports: ProfilePorts)
    requires CreateProfile(st, pr, parsesAsUri, domain, createDid, resolve, now, ports).result.Success?
    ensures var r := CreateProfile(st, pr, parsesAsUri, domain, createDid, resolve, now, ports);
      ServeProfile(r.state, pr.name, None) == Success(r.result.value)
  {
    CreatedProfileIsRetrievable(st, pr, parsesAsUri, domain, createDid, resolve, now, ports);
  }

  /** Profile creation keeps the store keyed by profile name, whatever the outcome. */
  lemma CreateProfileKeepsProfilesUnderName(
    st: ProfileState, pr: Validation.ProfileRequest, parsesAsUri: string -> bool, domain: string,
    createDid: DidService, resolve: DidService, now: Time, ports: ProfilePorts)
    requires SavedUnderName(st.profiles)
    ensures SavedUnderName(CreateProfile(st, pr, parsesAsUri, domain, createDid, resolve, now, ports).state.profiles)
  {
  }
}

=== FILE: routes.dfy ===
/**
 * Mode routing: the service is started either as an issuer or as a verifier,
 * and the mode alone decides which HTTP routes exist. An operation outside the
 * active mode is not rejected at run time; it is simply never registered.
 */
module Routes {
  import opened Wrappers
  import opened Errors

  const IssuerMode := "issuer"
  const VerifierMode := "verifier"

  datatype HttpMethod = Get | Post

  /** The handler a route dispatches to. */
  datatype Handler =
    | VerifyCredentialHandler
    | VerifyPresentationHandler
    | CredentialsVerificationHandler
    | CreateProfileHandler
    | GetProfileHandler
    | CreateCredentialHandler
    | StoreCredentialHandler
    | UpdateCredentialStatusHandler
    | RetrieveCredentialHandler
    | CredentialStatusHandler
    | GenerateKeypairHandler
    | IssueCredentialHandler
    | ComposeAndIssueCredentialHandler

  datatype Route = Route(path: string, verb: HttpMethod, handler: Handler)

  // endpoints
  const CreateCredentialPath := "/credential"
  const VerifyCredentialPath := "/verify"
  const UpdateCredentialStatusPath := "/updateStatus"
  const CreateProfilePath := "/profile"
  const GetProfilePath := "/profile/{id}"
  const StoreCredentialPath := "/store"
  const RetrieveCredentialPath := "/retrieve"
  const VerifyPresentationPath := "/verifyPresentation"
  const CredentialStatusPath := "/status/{id}"
  const IssueCredentialPath := "/credentials/issueCredential"
  const ComposeAndIssueCredentialPath := "/credentials/composeAndIssueCredential"
  const GenerateKeypairPath := "/kms/generatekeypair"
  /** The older path of the checks API, kept during a transition period. */
  const CredentialVerificationsPath := "/verifications"
  const VerifierCredentialsPath := "/verifier/credentials"

  /** The paths served by a route table. */
  function Paths(routes: seq<Route>): set<string> {
    set i | 0 <= i < |routes| :: routes[i].path
  }

  /** No path is registered twice, so every request reaches at most one handler. */
  predicate DistinctPaths(routes: seq<Route>) {
    forall i, j :: 0 <= i < j < |routes| ==> routes[i].path != routes[j].path
  }

  /** The handler registered for `path`, if any. */
  function HandlerFor(routes: seq<Route>, path: string): Option<Handler> {
    if |routes| == 0 then None
    else if routes[0].path == path then Some(routes[0].handler)
    else HandlerFor(routes[1..], path)
  }

  /** The routes available in mode `mode`; any mode other than the two known ones is an error. */
  function RestHandlers(mode: string): (r: Result<seq<Route>, Error>)
    ensures r.Failure? <==> mode != IssuerMode && mode != VerifierMode
    ensures r.Failure? ==> r.error == InvalidMode(mode)
    ensures mode == VerifierMode ==> (r.Success? && Paths(r.value) ==
      {VerifyCredentialPath, VerifyPresentationPath, CredentialVerificationsPath, VerifierCredentialsPath})
    ensures mode == IssuerMode ==> (r.Success? && Paths(r.value) ==
      {CreateProfilePath, GetProfilePath, CreateCredentialPath, StoreCredentialPath, VerifyCredentialPath,
       UpdateCredentialStatusPath, RetrieveCredentialPath, CredentialStatusPath, GenerateKeypairPath,
       IssueCredentialPath, ComposeAndIssueCredentialPath})
  {
    if mode == VerifierMode then
      var routes := [
        Route(VerifyCredentialPath, Post, VerifyCredentialHandler),
        Route(VerifyPresentationPath, Post, VerifyPresentationHandler),
        Route(CredentialVerificationsPath, Post, CredentialsVerificationHandler),
        Route(VerifierCredentialsPath, Post, CredentialsVerificationHandler)
      ];
      assert Paths(routes) == {routes[0].path, routes[1].path, routes[2].path, routes[3].path};
      Success(routes)
    else if mode == IssuerMode then
      var routes := [
        Route(CreateProfilePath, Post, CreateProfileHandler),
        Route(GetProfilePath, Get, GetProfileHandler),
        Route(CreateCredentialPath, Post, CreateCredentialHandler),
        Route(StoreCredentialPath, Post, StoreCredentialHandler),
        Route(VerifyCredentialPath, Post, VerifyCredentialHandler),
        Route(UpdateCredentialStatusPath, Post, UpdateCredentialStatusHandler),
        Route(RetrieveCredentialPath, Get, RetrieveCredentialHandler),
        Route(CredentialStatusPath, Get, CredentialStatusHandler),
        Route(GenerateKeypairPath, Get, GenerateKeypairHandler),
        Route(IssueCredentialPath, Post, IssueCredentialHandler),
        Route(ComposeAndIssueCredentialPath, Post, ComposeAndIssueCredentialHandler)
      ];
      assert Paths(routes) == {routes[0].path, routes[1].path, routes[2].path, routes[3].path,
        routes[4].path, routes[5].path, routes[6].path, routes[7].path, routes[8].path,
        routes[9].path, routes[10].path};
      Success(routes)
    else
      Failure(InvalidMode(mode))
  }

  /**
   * Mode isolation: the issuer table serves none of the verifier-only paths, and
   * the verifier table serves none of the issuance, profile or storage paths.
   * Both modes expose `/verify`.
   */
  lemma ModeIsolation()
    ensures var issuer := RestHandlers(IssuerMode).value;
      && VerifyCredentialPath in Paths(issuer)
      && VerifyPresentationPath !in Paths(issuer)
      && CredentialVerificationsPath !in Paths(issuer)
      && VerifierCredentialsPath !in Paths(issuer)
    ensures var verifier := RestHandlers(VerifierMode).value;
      && VerifyCredentialPath in Paths(verifier)
      && Paths(verifier) * {CreateProfilePath, GetProfilePath, CreateCredentialPath, StoreCredentialPath,
           UpdateCredentialStatusPath, RetrieveCredentialPath, CredentialStatusPath, GenerateKeypairPath,
           IssueCredentialPath, ComposeAndIssueCredentialPath} == {}
  {
  }

  /** The issuer table registers each of its eleven paths exactly once. */
  lemma IssuerTableIsUnambiguous()
    ensures var issuer := RestHandlers(IssuerMode).value;
      |issuer| == 11 && DistinctPaths(issuer)
  {
    var issuer := RestHandlers(IssuerMode).value;
    forall i, j | 0 <= i < j < |issuer|
      ensures issuer[i].path != issuer[j].path
    {
      // any two issuer paths differ in length or in the character after the leading slash
      var a, b := issuer[i].path, issuer[j].path;
      assert |a| != |b| || a[1] != b[1];
    }
  }

  /**
   * The verifier table registers each of its four paths exactly once, and both
   * paths of the checks API reach the same handler.
   */
  lemma VerifierTableIsUnambiguous()
    ensures var verifier := RestHandlers(VerifierMode).value;
      && |verifier| == 4 && DistinctPaths(verifier)
      && HandlerFor(verifier, CredentialVerificationsPath) == Some(CredentialsVerificationHandler)
      && HandlerFor(verifier, VerifierCredentialsPath) == Some(CredentialsVerificationHandler)
  {
    var verifier := RestHandlers(VerifierMode).value;
    assert HandlerFor(verifier[3..], VerifierCredentialsPath) == Some(CredentialsVerificationHandler);
    assert HandlerFor(verifier[2..], VerifierCredentialsPath) == Some(CredentialsVerificationHandler);
    assert HandlerFor(verifier[1..], VerifierCredentialsPath) == Some(CredentialsVerificationHandler);
    assert HandlerFor(verifier[2..], CredentialVerificationsPath) == Some(CredentialsVerificationHandler);
    assert HandlerFor(verifier[1..], CredentialVerificationsPath) == Some(CredentialsVerificationHandler);
  }
}

=== FILE: storage.dfy ===
/**
 * The confidential storage adapter: credentials are wrapped in a structured
 * document, encrypted, and written to the profile's vault under a document id;
 * an ID-mapping store remembers which document id belongs to which credential id.
 *
 * The two stores are maps. Encryption is an abstract sealed envelope whose
 * opening with the right key gives back exactly what was sealed. Port faults
 * and the random document id are parameters of each request.
 */
module Storage {
  import opened Wrappers
  import opened Errors
  import opened Credentials
  import Validation
  import Verification

  /** The single field of a structured document, holding the raw credential. */
  const MessageField := "message"

  /** The JSON text Go writes for a missing field. */
  const NullText := "null"

  datatype StructuredDocument = StructuredDocument(id: string, content: map<string, Bytes>)

  /** An authenticated-encryption envelope sealed for a single recipient key. */
  datatype Jwe = Jwe(recipient: string, sealed: StructuredDocument)

  /** Opens an envelope with `key`; any other recipient's envelope does not open. */
  function Unpack(key: string, jwe: Jwe): (r: Result<StructuredDocument, Error>)
    ensures r.Success? <==> jwe.recipient == key
    ensures r.Success? ==> r.value == jwe.sealed
    ensures r.Failure? ==> r.error == UnpackFailed
  {
    if jwe.recipient == key then Success(jwe.sealed) else Failure(UnpackFailed)
  }

  /** Seals a document with the service's own key as sender and sole recipient. */
  function Pack(key: string, doc: StructuredDocument): (jwe: Jwe)
    ensures Unpack(key, jwe) == Success(doc)
    ensures forall other :: other != key ==> Unpack(other, jwe).Failure?
  {
    Jwe(key, doc)
  }

  datatype EncryptedDocument = EncryptedDocument(id: string, sequence: nat, jwe: Jwe)

  /** A document's place: the vault (named after the profile) and its document id. */
  datatype DocKey = DocKey(vault: string, docId: string)

  /** The ID-mapping store (credential id to document id) and the documents of every vault. */
  datatype StoreState = StoreState(idMapping: map<string, string>, vaults: map<DocKey, EncryptedDocument>)

  /** What the ports answer during one store request. */
  datatype StorePorts = StorePorts(
    mappingFault: Option<string>,    // the mapping lookup fails other than with "not found"
    freshId: Result<string, string>, // a new random vault-compatible document id, or the generator's error
    marshalFault: Option<string>,    // the JSON encoder refuses the document: the raw credential text is not a JSON value
    packFault: Option<string>,
    writeFault: Option<string>,
    putFault: Option<string>,
    replacesExisting: bool)          // the vault accepts a create under a document id it holds, replacing that document

  /** The vault service's refusal of a create under a document id it already holds. */
  const DuplicateDocument := "document already exists"

  /**
   * The document a credential is stored as: the document id already mapped to the
   * credential id, or a fresh one when the mapping has none; a lookup failure other
   * than "not found" aborts. The content is the raw credential under `message`.
   */
  function BuildStructuredDoc(mapping: map<string, string>, vcId: string, raw: Bytes, ports: StorePorts): (r: Result<StructuredDocument, Error>)
    ensures ports.mappingFault.Some? ==> r == Failure(MappingLookupFailed(ports.mappingFault.value))
    ensures ports.mappingFault.None? && vcId in mapping ==> r.Success? && r.value.id == mapping[vcId]
    ensures ports.mappingFault.None? && vcId !in mapping ==>
      (r.Success? <==> ports.freshId.Success?) && (r.Success? ==> r.value.id == ports.freshId.value)
    ensures r.Success? ==> r.value.content == map[MessageField := raw]
  {
    var docId :-
      if ports.mappingFault.Some? then Failure(MappingLookupFailed(ports.mappingFault.value))
      else if vcId in mapping then Success(mapping[vcId])
      else match ports.freshId {
        case Success(id) => Success(id)
        case Failure(e) => Failure(IdGenerationFailed(e))
      };
    Success(StructuredDocument(docId, map[MessageField := raw]))
  }

  datatype StoreOutcome = StoreOutcome(state: StoreState, error: Option<Error>)

  /**
   * Stores a credential in a profile's vault: build the document, encode and encrypt it, create it
   * in the vault, and only then record the mapping. A failed document write leaves both
   * stores as they were; a failed mapping write leaves the document written but unmapped.
   * Whether the vault accepts a create under an id it already holds is the vault
   * service's decision, given by `ports.replacesExisting`.
   */
  function StoreVC(st: StoreState, profile: string, vcId: string, raw: Bytes, key: string, ports: StorePorts): (r: StoreOutcome)
    ensures r.error.None? <==>
      && BuildStructuredDoc(st.idMapping, vcId, raw, ports).Success?
      && ports.marshalFault.None? && ports.packFault.None? && ports.writeFault.None? && ports.putFault.None?
      && (ports.replacesExisting || DocKey(profile, BuildStructuredDoc(st.idMapping, vcId, raw, ports).value.id) !in st.vaults)
    ensures BuildStructuredDoc(st.idMapping, vcId, raw, ports).Failure? ==> r.state == st
    ensures BuildStructuredDoc(st.idMapping, vcId, raw, ports).Success? && ports.marshalFault.Some? ==>
      r == StoreOutcome(st, Some(MarshalFailed(ports.marshalFault.value)))
    ensures BuildStructuredDoc(st.idMapping, vcId, raw, ports).Success? ==>
      var written := DocKey(profile, BuildStructuredDoc(st.idMapping, vcId, raw, ports).value.id);
      && r.state.vaults.Keys <= st.vaults.Keys + {written}
      && forall k :: k in st.vaults && k != written ==> k in r.state.vaults && r.state.vaults[k] == st.vaults[k]
    ensures r.error.None? ==>
      && vcId in r.state.idMapping
      && var docKey := DocKey(profile, r.state.idMapping[vcId]);
      && docKey in r.state.vaults
      && r.state.vaults[docKey].id == r.state.idMapping[vcId]
      && Unpack(key, r.state.vaults[docKey].jwe) == Success(StructuredDocument(r.state.idMapping[vcId], map[MessageField := raw]))
    ensures r.error.None? && vcId !in st.idMapping ==> ports.freshId.Success? && r.state.idMapping[vcId] == ports.freshId.value
    ensures forall k :: k in st.idMapping ==> k in r.state.idMapping && r.state.idMapping[k] == st.idMapping[k]
    ensures r.state.idMapping.Keys <= st.idMapping.Keys + {vcId}
    ensures r.error.Some? ==> r.state.idMapping == st.idMapping
    ensures r.error.Some? && !r.error.value.MappingWriteFailed? ==> r.state == st
    ensures forall k :: k in st.vaults && k.vault != profile ==> k in r.state.vaults && r.state.vaults[k] == st.vaults[k]
  {
    match BuildStructuredDoc(st.idMapping, vcId, raw, ports)
    case Failure(e) => StoreOutcome(st, Some(e))
    case Success(doc) =>
      if ports.marshalFault.Some? then StoreOutcome(st, Some(MarshalFailed(ports.marshalFault.value)))
      else if ports.packFault.Some? then StoreOutcome(st, Some(PackFailed(ports.packFault.value)))
      else
        var encrypted := EncryptedDocument(doc.id, 0, Pack(key, doc));
        if ports.writeFault.Some? then StoreOutcome(st, Some(DocumentWriteFailed(ports.writeFault.value)))
        else if DocKey(profile, doc.id) in st.vaults && !ports.replacesExisting then
          StoreOutcome(st, Some(DocumentWriteFailed(DuplicateDocument)))
        else
          var written := st.(vaults := st.vaults[DocKey(profile, doc.id) := encrypted]);
          if ports.putFault.Some? then StoreOutcome(written, Some(MappingWriteFailed(ports.putFault.value)))
          else StoreOutcome(written.(idMapping := st.idMapping[vcId := doc.id]), None)
  }

  /**
   * The mapping is written after the document: when only the mapping write fails, a new
   * credential's document sits in the vault with no credential id pointing to it.
   */
  lemma MappingWriteFailureOrphansDocument(st: StoreState, profile: string, vcId: string, raw: Bytes, key: string, ports: StorePorts)
    requires vcId !in st.idMapping && ports.mappingFault.None? && ports.freshId.Success?
    requires ports.marshalFault.None? && ports.packFault.None? && ports.writeFault.None? && ports.putFault.Some?
    requires DocKey(profile, ports.freshId.value) !in st.vaults
    ensures var r := StoreVC(st, profile, vcId, raw, key, ports);
      && r.error.Some? && vcId !in r.state.idMapping
      && DocKey(profile, ports.freshId.value) in r.state.vaults
  {
  }

  /**
   * Retrieves a credential: validate the request, look up the document id, read the
   * document from the profile's vault, decrypt it and return its `message` field as the
   * JSON encoder writes it again (`reencode`). Lookup and read failures are client errors
   * (400); a document that does not decrypt is a server error (500).
   */
  function Retrieve(st: StoreState, profile: string, vcId: string, key: string, reencode: Bytes -> Bytes): (r: Result<Bytes, HttpError>)
    ensures Validation.ValidateRequest(profile, vcId).Some? ==>
      r == Failure(HttpError(BadRequest, Validation.ValidateRequest(profile, vcId).value))
    ensures profile != "" && vcId != "" && vcId !in st.idMapping ==> r == Failure(HttpError(BadRequest, MappingNotFound))
    ensures r.Failure? && r.error.code == InternalServerError ==> r.error.cause == UnpackFailed
    ensures (Validation.ValidateRequest(profile, vcId).None? && vcId in st.idMapping &&
      DocKey(profile, st.idMapping[vcId]) !in st.vaults) ==> r.Failure? && r.error.code == BadRequest
    ensures (Validation.ValidateRequest(profile, vcId).None? && vcId in st.idMapping &&
      DocKey(profile, st.idMapping[vcId]) in st.vaults) ==>
      (r.Success? <==> Unpack(key, st.vaults[DocKey(profile, st.idMapping[vcId])].jwe).Success?)
    ensures r.Success? ==>
      && vcId in st.idMapping
      && DocKey(profile, st.idMapping[vcId]) in st.vaults
      && var doc := Unpack(key, st.vaults[DocKey(profile, st.idMapping[vcId])].jwe);
      && doc.Success?
      && r.value == reencode(if MessageField in doc.value.content then doc.value.content[MessageField] else NullText)
  {
    match Validation.ValidateRequest(profile, vcId)
    case Some(e) => Failure(HttpError(BadRequest, e))
    case None =>
      if vcId !in st.idMapping then Failure(HttpError(BadRequest, MappingNotFound))
      else
        var docKey := DocKey(profile, st.idMapping[vcId]);
        if docKey !in st.vaults then Failure(HttpError(BadRequest, DocumentReadFailed("document not found")))
        else match Unpack(key, st.vaults[docKey].jwe) {
          case Failure(e) => Failure(HttpError(InternalServerError, e))
          case Success(doc) =>
            var message := if MessageField in doc.content then doc.content[MessageField] else NullText;
            Success(reencode(message))
        }
  }

  /** Store then retrieve: the stored credential comes back, as the JSON encoder writes it. */
  lemma StoreThenRetrieve(st: StoreState, profile: string, vcId: string, raw: Bytes, key: string, ports: StorePorts, reencode: Bytes -> Bytes)
    requires profile != "" && vcId != ""
    requires StoreVC(st, profile, vcId, raw, key, ports).error.None?
    ensures Retrieve(StoreVC(st, profile, vcId, raw, key, ports).state, profile, vcId, key, reencode) == Success(reencode(raw))
  {
    var r := StoreVC(st, profile, vcId, raw, key, ports);
    var docKey := DocKey(profile, r.state.idMapping[vcId]);
    assert Unpack(key, r.state.vaults[docKey].jwe).value.content[MessageField] == raw;
  }

  /** No port fails during a store request (the fresh document id may still be unavailable). */
  predicate Healthy(ports: StorePorts) {
    ports.mappingFault.None? && ports.marshalFault.None? && ports.packFault.None? && ports.writeFault.None? && ports.putFault.None?
  }

  /**
   * Storing a new credential and then storing the same credential id again reuses its
   * document id, whatever fresh id the second request draws. When the vault replaces
   * documents on create, retrieval then returns the latest payload.
   */
  lemma RepeatedStoreKeepsDocumentId(
    st: StoreState, profile: string, vcId: string, raw1: Bytes, raw2: Bytes, key: string,
    ports1: StorePorts, ports2: StorePorts, reencode: Bytes -> Bytes)
    requires profile != "" && vcId != ""
    requires Healthy(ports1) && ports1.freshId.Success? && Healthy(ports2) && ports2.replacesExisting
    requires vcId !in st.idMapping && DocKey(profile, ports1.freshId.value) !in st.vaults
    ensures var r1 := StoreVC(st, profile, vcId, raw1, key, ports1);
      var r2 := StoreVC(r1.state, profile, vcId, raw2, key, ports2);
      && r1.error.None? && r2.error.None?
      && r2.state.idMapping[vcId] == r1.state.idMapping[vcId]
      && Retrieve(r2.state, profile, vcId, key, reencode) == Success(reencode(raw2))
  {
    var st1 := StoreVC(st, profile, vcId, raw1, key, ports1).state;
    StoreThenRetrieve(st1, profile, vcId, raw2, key, ports2, reencode);
  }

  /**
   * When the vault refuses a create under an id it holds, storing a credential id a
   * second time fails, changes nothing, and the first payload stays retrievable.
   */
  lemma RepeatedStoreRefusedByCreateOnlyVault(
    st: StoreState, profile: string, vcId: string, raw1: Bytes, raw2: Bytes, key: string,
    ports1: StorePorts, ports2: StorePorts, reencode: Bytes -> Bytes)
    requires profile != "" && vcId != ""
    requires Healthy(ports1) && ports1.freshId.Success? && Healthy(ports2) && !ports2.replacesExisting
    requires vcId !in st.idMapping && DocKey(profile, ports1.freshId.value) !in st.vaults
    ensures var r1 := StoreVC(st, profile, vcId, raw1, key, ports1);
      var r2 := StoreVC(r1.state, profile, vcId, raw2, key, ports2);
      && r1.error.None?
      && r2 == StoreOutcome(r1.state, Some(DocumentWriteFailed(DuplicateDocument)))
      && Retrieve(r2.state, profile, vcId, key, reencode) == Success(reencode(raw1))
  {
    StoreThenRetrieve(st, profile, vcId, raw1, key, ports1, reencode);
  }

  /** The body of a store request: the profile and the raw credential. */
  datatype StoreVCRequest = StoreVCRequest(profile: string, credential: Bytes)

  /**
   * The store handler: the credential must parse with valid signatures, the profile name
   * and the credential's own id must be non-empty, and then it is stored under that id.
   */
  function StoreCredential(st: StoreState, req: StoreVCRequest, parse: Verification.Parser, key: string, ports: StorePorts): (r: StoreOutcome)
    ensures parse(req.credential).Failure? ==> r == StoreOutcome(st, Some(CredentialNotVerified(parse(req.credential).error)))
    ensures parse(req.credential).Success? && Validation.ValidateRequest(req.profile, parse(req.credential).value.id).Some? ==>
      r == StoreOutcome(st, Validation.ValidateRequest(req.profile, parse(req.credential).value.id))
    ensures r.error.None? ==>
      && parse(req.credential).Success?
      && parse(req.credential).value.id != "" && req.profile != ""
    ensures parse(req.credential).Success? && Validation.ValidateRequest(req.profile, parse(req.credential).value.id).None? ==>
      r == StoreVC(st, req.profile, parse(req.credential).value.id, req.credential, key, ports)
  {
    match parse(req.credential)
    case Failure(e) => StoreOutcome(st, Some(CredentialNotVerified(e)))
    case Success(vc) =>
      match Validation.ValidateRequest(req.profile, vc.id)
      case Some(e) => StoreOutcome(st, Some(e))
      case None => StoreVC(st, req.profile, vc.id, req.credential, key, ports)
  }

  /**
   * A credential accepted by the store handler is retrievable under its own id and the
   * profile it was stored for, as the JSON encoder writes it.
   */
  lemma StoreCredentialThenRetrieve(
    st: StoreState, req: StoreVCRequest, parse: Verification.Parser, key: string, ports: StorePorts,
    reencode: Bytes -> Bytes)
    requires StoreCredential(st, req, parse, key, ports).error.None?
    ensures parse(req.credential).Success?
    ensures Retrieve(StoreCredential(st, req, parse, key, ports).state, req.profile, parse(req.credential).value.id, key, reencode)
      == Success(reencode(req.credential))
  {
    StoreThenRetrieve(st, req.profile, parse(req.credential).value.id, req.credential, key, ports, reencode);
  }

  /**
   * Storing and retrieving refuse the same requests with the same error: an empty
   * profile name or credential id is a client error on both sides, and a refused store
   * changes nothing.
   */
  lemma StoreAndRetrieveShareValidation(
    st: StoreState, req: StoreVCRequest, parse: Verification.Parser, key: string, ports: StorePorts,
    reencode: Bytes -> Bytes)
    requires parse(req.credential).Success?
    requires Validation.ValidateRequest(req.profile, parse(req.credential).value.id).Some?
    ensures var e := Validation.ValidateRequest(req.profile, parse(req.credential).value.id).value;
      && StoreCredential(st, req, parse, key, ports) == StoreOutcome(st, Some(e))
      && Retrieve(st, req.profile, parse(req.credential).value.id, key, reencode) == Failure(HttpError(BadRequest, e))
  {
  }
}

=== FILE: validation.dfy ===
/**
 * Request validation: ordered emptiness checks that reject a request with the
 * first missing field, before any other work is done.
 */
module Validation {
  import opened Wrappers
  import opened Errors
  import opened Credentials

  /** The body of a create-profile request. */
  datatype ProfileRequest = ProfileRequest(
    name: string,
    uri: string,
    signatureType: string,
    signatureRepresentation: SignatureRepresentation,
    did: string,
    didPrivateKey: string)

  /**
   * Checks a create-profile request: name, then URI, then signature type must be
   * non-empty, and only then is the URI parsed. `parsesAsUri` stands for Go's
   * `url.Parse` succeeding, which is outside the model.
   */
  function ValidateProfileRequest(pr: ProfileRequest, parsesAsUri: string -> bool): (r: Option<Error>)
    ensures r.None? <==> pr.name != "" && pr.uri != "" && pr.signatureType != "" && parsesAsUri(pr.uri)
    ensures pr.name == "" ==> r == Some(MissingProfileName)
    ensures pr.name != "" && pr.uri == "" ==> r == Some(MissingUri)
    ensures pr.name != "" && pr.uri != "" && pr.signatureType == "" ==> r == Some(MissingSignatureType)
    ensures pr.name != "" && pr.uri != "" && pr.signatureType != "" && !parsesAsUri(pr.uri) ==>
      r == Some(InvalidUri(pr.uri))
  {
    if pr.name == "" then Some(MissingProfileName)
    else if pr.uri == "" then Some(MissingUri)
    else if pr.signatureType == "" then Some(MissingSignatureType)
    else if !parsesAsUri(pr.uri) then Some(InvalidUri(pr.uri))
    else None
  }

  /**
   * The verdict on a profile request depends only on the fields up to the first
   * missing one: two requests that agree on those get the same error, whatever
   * their later fields hold.
   */
  lemma ProfileValidationStopsAtFirstMissing(pr: ProfileRequest, other: ProfileRequest, parsesAsUri: string -> bool)
    requires pr.name == "" ==> other.name == ""
    requires pr.name != "" && pr.uri == "" ==> other.name == pr.name && other.uri == ""
    requires pr.name != "" && pr.uri != "" && pr.signatureType == "" ==>
      other.name == pr.name && other.uri == pr.uri && other.signatureType == ""
    requires ValidateProfileRequest(pr, parsesAsUri).Some? && !ValidateProfileRequest(pr, parsesAsUri).value.InvalidUri?
    ensures ValidateProfileRequest(other, parsesAsUri) == ValidateProfileRequest(pr, parsesAsUri)
  {
  }

  /** Checks a store or retrieve request: the profile name, then the credential id, must be non-empty. */
  function ValidateRequest(profileName: string, vcId: string): (r: Option<Error>)
    ensures r.None? <==> profileName != "" && vcId != ""
    ensures profileName == "" ==> r == Some(MissingProfileName)
    ensures profileName != "" && vcId == "" ==> r == Some(MissingCredentialId)
  {
    if profileName == "" then Some(MissingProfileName)
    else if vcId == "" then Some(MissingCredentialId)
    else None
  }
}

=== FILE: verification.dfy ===
/**
 * Verification: the named-check API, the proof check, the revocation-status
 * lookup behind credential verification, and presentation verification.
 *
 * Parsing a credential or presentation together with checking its embedded
 * signatures is the credential library's work; it is an oracle (`Parser`,
 * `PresentationParser`) giving the parsed value or the library's error text.
 * Fetching a status list over HTTP and decoding it is an oracle too.
 */
module Verification {
  import opened Wrappers
  import opened Errors
  import opened Credentials
  import opened Json

  const ProofCheck := "proof"
  const CheckNotSupported := "check not supported"
  const SuccessMessage := "success"
  const NoProofMessage := "verifiable credential doesn't contains proof"
  const ProofValidationPrefix := "proof validation error : "

  /** Parses a credential and verifies its embedded proofs. */
  type Parser = Bytes -> Result<Credential, string>

  /** A verifiable presentation, with each embedded credential re-encoded as JSON. */
  datatype Presentation = Presentation(credentials: seq<Bytes>)

  /** Parses a presentation and verifies its own embedded proof. */
  type PresentationParser = Bytes -> Result<Presentation, string>

  /** Fetches and decodes the status list at a URL: its entries, each a status credential. */
  type StatusListFetcher = string -> Result<seq<Bytes>, string>

  // ---------------------------------------------------------------------------
  // named checks

  datatype VerificationOptions = VerificationOptions(checks: seq<string>)
  datatype CredentialsVerificationRequest = CredentialsVerificationRequest(credential: Bytes, opts: Option<VerificationOptions>)
  datatype CheckResult = CheckResult(check: string, error: string)

  /** Either every check passed (the list is echoed) or the failures, one per failed check. */
  datatype ChecksResponse = ChecksPassed(checks: seq<string>) | ChecksFailed(results: seq<CheckResult>)

  /**
   * The proof check: the credential must parse with valid signatures and carry at
   * least one proof. The outcome is `None` on success and the error text otherwise.
   */
  function CheckProof(vc: Bytes, parse: Parser): (r: Option<string>)
    ensures r.None? <==> parse(vc).Success? && |parse(vc).value.proofs| > 0
    ensures parse(vc).Failure? ==> r == Some(ProofValidationPrefix + parse(vc).error)
    ensures parse(vc).Success? && |parse(vc).value.proofs| == 0 ==> r == Some(NoProofMessage)
  {
    match parse(vc)
    case Failure(e) => Some(ProofValidationPrefix + e)
    case Success(credential) => if |credential.proofs| == 0 then Some(NoProofMessage) else None
  }

  /** The checks to run: the request's list, or just the proof check when it gives none. */
  function RequestedChecks(req: CredentialsVerificationRequest): (checks: seq<string>)
    ensures |checks| > 0
    ensures req.opts.Some? && |req.opts.value.checks| > 0 ==> checks == req.opts.value.checks
    ensures req.opts.None? || |req.opts.value.checks| == 0 ==> checks == [ProofCheck]
  {
    if req.opts.Some? && |req.opts.value.checks| != 0 then req.opts.value.checks else [ProofCheck]
  }

  /** The check names of a list of results, in order. */
  function Names(results: seq<CheckResult>): (names: seq<string>)
    ensures |names| == |results| && forall i :: 0 <= i < |results| ==> names[i] == results[i].check
  {
    seq(|results|, i requires 0 <= i < |results| => results[i].check)
  }

  /** The check names other than the proof check, in order and with repetitions. */
  function Unsupported(checks: seq<string>): seq<string> {
    if |checks| == 0 then []
    else
      var last := checks[|checks| - 1];
      Unsupported(checks[..|checks| - 1]) + (if last == ProofCheck then [] else [last])
  }

  /** No unsupported check was asked for exactly when every name is the proof check. */
  lemma {:induction false} UnsupportedEmptyIff(checks: seq<string>)
    ensures Unsupported(checks) == [] <==> forall i :: 0 <= i < |checks| ==> checks[i] == ProofCheck
  {
    if |checks| > 0 {
      var init := checks[..|checks| - 1];
      UnsupportedEmptyIff(init);
      assert forall i :: 0 <= i < |init| ==> init[i] == checks[i];
    }
  }

  /** Every unsupported name is reported as often as it is asked for, duplicates included. */
  lemma {:induction false} UnsupportedMultiplicity(checks: seq<string>, name: string)
    requires name != ProofCheck
    ensures multiset(Unsupported(checks))[name] == multiset(checks)[name]
  {
    if |checks| > 0 {
      var init := checks[..|checks| - 1];
      UnsupportedMultiplicity(init, name);
      assert checks == init + [checks[|checks| - 1]];
    }
  }

  /** Appending a name extends the unsupported names by that name, unless it is the proof check. */
  lemma UnsupportedSnoc(checks: seq<string>, name: string)
    ensures Unsupported(checks + [name]) == Unsupported(checks) + (if name == ProofCheck then [] else [name])
  {
    assert (checks + [name])[..|checks|] == checks;
  }

  /**
   * Runs a list of checks in order, given the outcome of the proof check (the proof
   * check is deterministic, so running it once per occurrence gives the same outcome).
   */
  method RunChecks(checks: seq<string>, proof: Option<string>) returns (results: seq<CheckResult>)
    ensures Names(results) == (if proof.None? then Unsupported(checks) else checks)
    ensures forall i :: 0 <= i < |results| ==>
      if results[i].check == ProofCheck then proof == Some(results[i].error)
      else results[i].error == CheckNotSupported
  {
    results := [];
    var k := 0;
    while k < |checks|
      invariant 0 <= k <= |checks|
      invariant Names(results) == (if proof.None? then Unsupported(checks[..k]) else checks[..k])
      invariant forall i :: 0 <= i < |results| ==>
        if results[i].check == ProofCheck then proof == Some(results[i].error)
        else results[i].error == CheckNotSupported
    {
      var name := checks[k];
      assert checks[..k + 1] == checks[..k] + [name];
      UnsupportedSnoc(checks[..k], name);
      if name == ProofCheck {
        if proof.Some? {
          results := results + [CheckResult(name, proof.value)];
        }
      } else {
        results := results + [CheckResult(name, CheckNotSupported)];
      }
      k := k + 1;
    }
    assert checks[..k] == checks;
  }

  /**
   * The checks API. Each name is checked in turn: the proof check records a failure
   * when the proof check fails, every other name records "check not supported". With
   * no failure the requested list is echoed; otherwise the failures are returned in the
   * order of the request.
   */
  method VerifyChecks(req: CredentialsVerificationRequest, parse: Parser) returns (resp: ChecksResponse)
    ensures var checks := RequestedChecks(req);
      resp.ChecksPassed? <==>
        (forall i :: 0 <= i < |checks| ==> checks[i] == ProofCheck) && CheckProof(req.credential, parse).None?
    ensures req.opts.None? ==> (resp.ChecksPassed? <==> CheckProof(req.credential, parse).None?)
    ensures resp.ChecksPassed? ==> resp.checks == RequestedChecks(req)
    ensures resp.ChecksFailed? ==> |resp.results| > 0
    ensures resp.ChecksFailed? ==>
      var proof := CheckProof(req.credential, parse);
      && Names(resp.results) == (if proof.None? then Unsupported(RequestedChecks(req)) else RequestedChecks(req))
      && forall i :: 0 <= i < |resp.results| ==>
           if resp.results[i].check == ProofCheck then proof == Some(resp.results[i].error)
           else resp.results[i].error == CheckNotSupported
  {
    var checks := RequestedChecks(req);
    var proof := CheckProof(req.credential, parse);
    var results := RunChecks(checks, proof);
    UnsupportedEmptyIff(checks);
    assert |results| == |Names(results)|;
    if |results| == 0 {
      resp := ChecksPassed(checks);
    } else {
      resp := ChecksFailed(results);
    }
  }

  // ---------------------------------------------------------------------------
  // revocation status

  /** The outcome of a credential verification that did not fail for a technical reason. */
  datatype Message = Text(text: string) | SubjectText(subject: Value)
  datatype VerifyResponse = VerifyResponse(verified: bool, message: Message)

  /** `entries[i]` is the first status entry mentioning `vcId`. */
  predicate FirstContainingAt(entries: seq<Bytes>, vcId: string, i: nat) {
    && i < |entries|
    && Contains(entries[i], vcId)
    && forall j :: 0 <= j < i ==> !Contains(entries[j], vcId)
  }

  /** A matching status entry means revoked: its subject is the reason; an entry that fails to verify is a fault. */
  function RevocationVerdict(entry: Result<Credential, string>): (r: Result<VerifyResponse, Error>)
    ensures r.Success? <==> entry.Success?
    ensures r.Success? ==> !r.value.verified && r.value.message == SubjectText(entry.value.subject)
    ensures r.Failure? ==> r.error == StatusCredentialInvalid(entry.error)
  {
    match entry
    case Success(statusCredential) => Success(VerifyResponse(false, SubjectText(statusCredential.subject)))
    case Failure(e) => Failure(StatusCredentialInvalid(e))
  }

  /** Scans a status list for the first entry whose text contains the credential id. */
  function ScanStatusList(entries: seq<Bytes>, vcId: string, parse: Parser): (r: Result<VerifyResponse, Error>)
    ensures (forall i :: 0 <= i < |entries| ==> !Contains(entries[i], vcId)) ==>
      r == Success(VerifyResponse(true, Text(SuccessMessage)))
    ensures forall i: nat :: FirstContainingAt(entries, vcId, i) ==> r == RevocationVerdict(parse(entries[i]))
    ensures r.Success? && r.value.verified ==> r.value.message == Text(SuccessMessage)
  {
    if |entries| == 0 then Success(VerifyResponse(true, Text(SuccessMessage)))
    else if Contains(entries[0], vcId) then RevocationVerdict(parse(entries[0]))
    else
      var rest := ScanStatusList(entries[1..], vcId, parse);
      assert forall i: nat :: FirstContainingAt(entries, vcId, i) ==>
        i > 0 && FirstContainingAt(entries[1..], vcId, i - 1);
      rest
  }

  /**
   * The status check of a credential: fetching or decoding the status list is a fault
   * reported as an error, never as `verified = false`.
   */
  function CheckVCStatus(statusList: Result<seq<Bytes>, string>, vcId: string, parse: Parser): (r: Result<VerifyResponse, Error>)
    ensures statusList.Failure? ==> r == Failure(StatusListUnavailable(statusList.error))
    ensures statusList.Success? ==> r == ScanStatusList(statusList.value, vcId, parse)
  {
    match statusList
    case Failure(e) => Failure(StatusListUnavailable(e))
    case Success(entries) => ScanStatusList(entries, vcId, parse)
  }

  /**
   * Credential verification as written: a credential that fails to parse is reported
   * as not verified; otherwise its status list is checked. The status reference is
   * dereferenced without a test, so a valid credential without one crashes the handler.
   */
  function VerifyCredentialAsWritten(body: Bytes, parse: Parser, fetch: StatusListFetcher): (r: Handled<Result<VerifyResponse, Error>>)
    ensures r.Crashed? <==> parse(body).Success? && parse(body).value.status.None?
  {
    match parse(body)
    case Failure(e) => Completed(Success(VerifyResponse(false, Text(e))))
    case Success(vc) =>
      if vc.status.None? then Crashed
      else Completed(CheckVCStatus(fetch(vc.status.value.id), vc.id, parse))
  }

  /** A correctly signed credential that carries no status reference crashes the handler as written. */
  lemma StatuslessCredentialCrashes(body: Bytes, parse: Parser, fetch: StatusListFetcher)
    requires parse(body).Success? && parse(body).value.status.None?
    ensures VerifyCredentialAsWritten(body, parse, fetch) == Crashed
  {
  }

  /**
   * Credential verification: a credential that fails to parse is reported as not
   * verified; one without a status reference is rejected with an error, since its
   * status cannot be determined; otherwise the status check decides.
   */
  function VerifyCredential(body: Bytes, parse: Parser, fetch: StatusListFetcher): (r: Result<VerifyResponse, Error>)
    ensures parse(body).Failure? ==> r == Success(VerifyResponse(false, Text(parse(body).error)))
    ensures parse(body).Success? && parse(body).value.status.None? ==> r == Failure(MissingStatus)
    ensures r.Failure? ==> parse(body).Success?
    ensures r.Success? && r.value.verified ==> r.value.message == Text(SuccessMessage)
    ensures parse(body).Success? && parse(body).value.status.Some? ==>
      r == CheckVCStatus(fetch(parse(body).value.status.value.id), parse(body).value.id, parse)
  {
    match parse(body)
    case Failure(e) => Success(VerifyResponse(false, Text(e)))
    case Success(vc) =>
      if vc.status.None? then Failure(MissingStatus)
      else CheckVCStatus(fetch(vc.status.value.id), vc.id, parse)
  }

  /** The correction only replaces the crash; every other verification ends as before. */
  lemma VerifyCorrectionOnlyRemovesCrash(body: Bytes, parse: Parser, fetch: StatusListFetcher)
    ensures VerifyCredentialAsWritten(body, parse, fetch).Completed? ==>
      VerifyCredentialAsWritten(body, parse, fetch).result == VerifyCredential(body, parse, fetch)
    ensures VerifyCredentialAsWritten(body, parse, fetch).Crashed? ==> VerifyCredential(body, parse, fetch) == Failure(MissingStatus)
  {
  }

  /**
   * Revocation shows in verification: when the first entry of the credential's status
   * list that mentions its id verifies, the credential is reported as not verified and
   * the entry's subject is the message.
   */
  lemma RevokedCredentialIsNotVerified(body: Bytes, parse: Parser, fetch: StatusListFetcher, i: nat)
    requires parse(body).Success? && parse(body).value.status.Some?
    requires var vc := parse(body).value;
      fetch(vc.status.value.id).Success? && FirstContainingAt(fetch(vc.status.value.id).value, vc.id, i)
    requires var vc := parse(body).value;
      parse(fetch(vc.status.value.id).value[i]).Success?
    ensures var vc := parse(body).value;
      var entry := parse(fetch(vc.status.value.id).value[i]).value;
      VerifyCredential(body, parse, fetch) == Success(VerifyResponse(false, SubjectText(entry.subject)))
  {
  }

  /**
   * The two verification endpoints disagree on proofless credentials: the named proof
   * check refuses a credential that carries no proof, while credential verification
   * looks only at the library's verdict and the status list.
   */
  lemma ProoflessCredentialPassesOnlyVerification(body: Bytes, parse: Parser, fetch: StatusListFetcher)
    requires parse(body).Success? && parse(body).value.proofs == [] && parse(body).value.status.Some?
    requires fetch(parse(body).value.status.value.id) == Success([])
    ensures CheckProof(body, parse) == Some(NoProofMessage)
    ensures VerifyCredential(body, parse, fetch) == Success(VerifyResponse(true, Text(SuccessMessage)))
  {
  }

  /**
   * Status entries match by substring: an entry revoking a credential also matches
   * every credential whose id is a prefix of that credential's id.
   */
  lemma StatusMatchIsBySubstring(entries: seq<Bytes>, revokedId: string, vcId: string, suffix: string, parse: Parser)
    requires revokedId == vcId + suffix
    requires |entries| > 0 && Contains(entries[0], revokedId) && parse(entries[0]).Success?
    ensures ScanStatusList(entries, vcId, parse) == Success(VerifyResponse(false, SubjectText(parse(entries[0]).value.subject)))
  {
    ContainsExtension(entries[0], vcId, suffix);
    assert FirstContainingAt(entries, vcId, 0);
  }

  /** A status list in which some entry mentions the credential id never answers it verified. */
  lemma {:induction false} MentionedIdIsNeverVerified(entries: seq<Bytes>, vcId: string, parse: Parser, i: nat)
    requires i < |entries| && Contains(entries[i], vcId)
    ensures ScanStatusList(entries, vcId, parse).Success? ==> !ScanStatusList(entries, vcId, parse).value.verified
    decreases |entries|
  {
    if !Contains(entries[0], vcId) {
      MentionedIdIsNeverVerified(entries[1..], vcId, parse, i - 1);
    }
  }

  /**
   * The substring match in general: an entry anywhere in the list that revokes a
   * credential keeps every credential whose id is a prefix of that credential's id from
   * being answered verified.
   */
  lemma PrefixOfRevokedIdIsNeverVerified(entries: seq<Bytes>, revokedId: string, vcId: string, suffix: string, parse: Parser, i: nat)
    requires revokedId == vcId + suffix
    requires i < |entries| && Contains(entries[i], revokedId)
    ensures ScanStatusList(entries, vcId, parse).Success? ==> !ScanStatusList(entries, vcId, parse).value.verified
  {
    ContainsExtension(entries[i], vcId, suffix);
    MentionedIdIsNeverVerified(entries, vcId, parse, i);
  }

  // ---------------------------------------------------------------------------
  // presentations

  /** `creds[i]` is the first embedded credential that fails to verify. */
  predicate FirstFailingAt(creds: seq<Bytes>, parse: Parser, i: nat) {
    && i < |creds|
    && parse(creds[i]).Failure?
    && forall j :: 0 <= j < i ==> parse(creds[j]).Success?
  }

  /**
   * Parses a presentation, then verifies every embedded credential in turn and stops
   * at the first that fails. The status of embedded credentials is not checked.
   */
  method ParseAndVerifyPresentation(body: Bytes, parseVP: PresentationParser, parse: Parser) returns (r: Result<Presentation, string>)
    ensures parseVP(body).Failure? ==> r == Failure(parseVP(body).error)
    ensures parseVP(body).Success? ==>
      var creds := parseVP(body).value.credentials;
      && (r.Success? <==> forall i :: 0 <= i < |creds| ==> parse(creds[i]).Success?)
      && (r.Success? ==> r.value == parseVP(body).value)
      && forall i: nat :: FirstFailingAt(creds, parse, i) ==> r == Failure(parse(creds[i]).error)
  {
    var vp :- parseVP(body);
    var creds := vp.credentials;
    var k := 0;
    while k < |creds|
      invariant 0 <= k <= |creds|
      invariant forall j :: 0 <= j < k ==> parse(creds[j]).Success?
    {
      var parsed := parse(creds[k]);
      if parsed.Failure? {
        assert FirstFailingAt(creds, parse, k);
        assert forall i: nat :: FirstFailingAt(creds, parse, i) ==> i == k;
        return Failure(parsed.error);
      }
      k := k + 1;
    }
    r := Success(vp);
  }

  /**
   * The presentation-verification handler fails closed: the presentation is verified
   * only when its own proof and every embedded credential verify.
   */
  method VerifyPresentation(body: Bytes, parseVP: PresentationParser, parse: Parser) returns (resp: VerifyResponse)
    ensures resp.verified <==>
      parseVP(body).Success? &&
      forall i :: 0 <= i < |parseVP(body).value.credentials| ==> parse(parseVP(body).value.credentials[i]).Success?
    ensures resp.verified ==> resp.message == Text(SuccessMessage)
    ensures parseVP(body).Failure? ==> resp == VerifyResponse(false, Text(parseVP(body).error))
    ensures parseVP(body).Success? ==>
      var creds := parseVP(body).value.credentials;
      forall i: nat :: FirstFailingAt(creds, parse, i) ==> resp == VerifyResponse(false, Text(parse(creds[i]).error))
  {
    var r := ParseAndVerifyPresentation(body, parseVP, parse);
    match r
    case Failure(e) => resp := VerifyResponse(false, Text(e));
    case Success(_) => resp := VerifyResponse(true, Text(SuccessMessage));
  }
}

=== FILE: wrappers.dfy ===
/** Failure-carrying wrappers shared by every module of the credential service model. */
module Wrappers {

  /** An optional value: the model's stand-in for Go's nil pointers and absent fields. */
  datatype Option<+T> = None | Some(value: T)

  /** Either a value or an error: the model's stand-in for Go's `(T, error)` return pairs. */
  datatype Result<+T, +E> = Success(value: T) | Failure(error: E) {
    predicate IsFailure() {
      Failure?
    }

    function PropagateFailure<U>(): Result<U, E>
      requires Failure?
    {
      Failure(error)
    }

    function Extract(): T
      requires Success?
    {
      value
    }
  }

  /** How a handler ends in the code as written: with its result, or by panicking. */
  datatype Handled<+T> = Completed(result: T) | Crashed
}
